=== FILE: README.md ===
# StellarEmpires planet engine, modelled in Dafny

This project models the event-sourced core of StellarEmpires, plus its resource ledger.

A **Planet** aggregate:
- checks each command (create, colonize, rename);
- raises exactly one domain event per successful command;
- applies that event to itself through `Apply`, a transition that only overwrites fields.

A **file event store** keeps one append-only log per entity type:
- the log key is `events-<lower-cased type name>`;
- it reads logs back through the discriminated **event converter**;
- after every append it refreshes the planet's **snapshot** in the **file planet store**, which upserts by id.

Three **command handlers** each do three things:
- load the planet;
- run one aggregate operation;
- append the last raised event.

Reading is split three ways:
- the **state retriever** replays a planet's events on its snapshot in ascending `OccurredOn` order, using a stable sort;
- the older **planet repository** replays them in log order on a fresh copy of a listed planet;
- the **query handler** returns the snapshot alone.

The **resource ledger** is a cache of 32-bit amounts per resource type:
- defaults of 100 / 50 / 25 / 0;
- an affordability check;
- a deduction clamped at the current amount;
- a per-tick accrual of `rate / 3600`.

Modelling choices:
- Time is an integer tick count, and every operation that reads the clock takes it as a `now` parameter.
- Identifiers are natural numbers; `Guid.Empty` is 0.
- Exceptions are the `Failure` side of a `Result`; each `Error` carries its exception type and the exact message string.
- The stores are values:
  - event logs are a map from log key to the sequence of events written;
  - snapshots are an optional sequence of planets, where `None` is a missing file.
- One event store serves every reader and writer. In the source there are two `IEventStore` interfaces:
  - The command handlers append through `StellarEmpires.Infrastructure.EventStore.IEventStore`, the interface the file event store implements.
  - The state retriever and the planet repository both live in the `StellarEmpires.Infrastructure` namespace. Their `IEventStore` therefore binds to `StellarEmpires.Infrastructure.IEventStore` (`PlanetStateRetriever.cs` lines 6 and 11, `PlanetRepository.cs` line 9), and the application wires the Azure blob store into it (`Program.cs`).

  The model lets both readers read the handlers' file event store, so that a handler's append is visible to the next read and the two read paths can be compared on one log.
- The repository's static planet list (`Infrastructure/planets.json`) is a different file from the snapshot store (`Infrastructure/PlanetStore/planets.json`), and no command writes it. The model keeps them apart: the repository takes its list as a separate parameter, and results about it hold for any list. They separate the case where the list holds the planet from the case where it does not, and in the latter the repository reports "Planet not found.".
- Reading a log goes through the converter, so a `Mock` event comes back stamped with the clock, since its `OccurredOn` is a getter. `EventStore.LoadAllEvents` states that its result is exactly `DecodeLog(EncodeLog(log), now)`.

Where the repository's revisions disagree, the model follows the tests that pin the behaviour:
- `Planet.cs` has no `Create` factory and a one-argument `Rename`, yet the handlers and `StellarEmpiresTests/Domain/PlanetTests.cs` use `Planet.Create(...)` and `Rename(name, playerId)`. The model has the test-pinned factory, including its colonization-pair checks and messages, and the colonizer-only rename. The colonizer check comes before the name check.
- The `Apply` in `Planet.cs` ignores the Created event, but a test expects it to set the name. The model sets it. Without that, a snapshot seeded as "New Planet" would never receive the real name.
- `Events/PlanetColonizedDomainEvent.cs` has no `EventType` property and is built by a constructor. The model gives it the shape of the other events: a tag, `EntityId`, `OccurredOn` defaulting to the clock, and `PlayerId`.
- Two stale tests are not modelled. One expects a duplicate snapshot save to throw, although the code upserts. The other renames an uncolonized planet with no player.

One might expect an injected, earlier-dated colonization by player B to take over as the current colonizer. The code sorts ascending by `OccurredOn` and applies in that order, so the **latest**-dated colonization wins. The model follows the code: `Scenarios.InjectedEarlierColonization` proves that the current state names the later-dated player A. The snapshot names B, the player whose event was appended last. The log-order repository also names B when its static list holds the planet; otherwise it does not find the planet at all, which is the case for a planet created through the command handler.

Every planet event is applied twice:
- once when the snapshot is refreshed after the append;
- once more when the retriever replays the log on top of that snapshot.

`StateRetriever.CurrentStateFromBase` proves this harmless. Because `Apply` only overwrites fields, the result equals one sorted replay on the base planet.

A planet created with `isColonized = true` is stored **uncolonized**. The Created event carries only the name, and the snapshot is seeded from the uncolonized "New Planet" default. `Commands.CreateThenQuery` states this.

## Model

| member | source | states |
|---|---|---|
| Planets.Apply | StellarEmpires/Domain/Models/Planet.cs:56-69 | `Id` and the pending-event buffer never change; an event variant the aggregate does not recognise leaves the planet unchanged |
| Planets.ApplyIdempotent | StellarEmpires/Domain/Models/Planet.cs:58-68 | applying the same event twice is the same as applying it once |
| Planets.ApplyPreservesConsistency | StellarEmpires/Domain/Models/Planet.cs:56-69 | a planet whose colonized flag agrees with its colonizer/time pair still agrees after any event |
| Planets.Create | StellarEmpiresTests/Domain/PlanetTests.cs:34-114 | succeeds exactly when the colonization pair matches the flag; otherwise fails with the expected message for that direction; on success the planet holds the given fields and exactly one Created event for its id |
| Planets.Colonize | StellarEmpires/Domain/Models/Planet.cs:20-36 | fails with "Planet is already colonized." exactly when colonized; otherwise marks it colonized by the player at the event's time and appends exactly one Colonized event for its id, keeping id and name |
| Planets.Rename | StellarEmpiresTests/Domain/PlanetTests.cs:183-257 | succeeds exactly for the recorded colonizer with a non-empty name; a non-colonizer (also on an uncolonized planet) gets the colonizer message, a null or empty name the name message; on success only the name changes and one Renamed event is appended |
| Planets.ReplayConcat | StellarEmpires/Infrastructure/PlanetStateRetriever.cs:27-30 | replaying a concatenation is replaying the parts one after the other |
| Planets.ReplayInvariants | StellarEmpires/Infrastructure/PlanetStateRetriever.cs:27-30 | a replay keeps the id, the pending-event buffer and colonization consistency |
| History.ReplayIsOutcome | StellarEmpires/Domain/Models/Planet.cs:56-69 | a replay equals the reference outcome: the name of the last naming event and the colonizer and time of the last Colonized event |
| History.LastNameFound | StellarEmpires/Domain/Models/Planet.cs:65-68 | a last naming event exists exactly when some event names the planet |
| History.LastColonizationFound | StellarEmpires/Domain/Models/Planet.cs:58-63 | a last colonization exists exactly when some event colonizes |
| History.ReplayAbsorbs | StellarEmpires/Domain/Models/Planet.cs:56-69 | replaying b after a equals replaying b alone whenever b overwrites every field a sets |
| History.ReplayPermutationAbsorbs | StellarEmpires/Infrastructure/EventStore/FileEventStore.cs:46-53 | replaying a reordering of the same events on top of their own replay equals replaying the reordering once |
| History.LastColonizationIsLatest | StellarEmpiresTests/Infrastructure/PlanetStateRetrieverTests.cs:101-143 | in a time-sorted sequence the last Colonized event has the greatest time among Colonized events |
| Ordering.SortByTimeSortedPermutation | StellarEmpires/Infrastructure/PlanetStateRetriever.cs:23-25 | the sort yields an ascending permutation of its input |
| Ordering.SortByTimeStable | StellarEmpires/Infrastructure/PlanetStateRetriever.cs:23-25 | the sort is stable: events with equal times keep their input order |
| Ordering.SortedDeterminedByTimes | StellarEmpires/Infrastructure/PlanetStateRetriever.cs:23-25 | two ascending sequences with the same events at every time are equal |
| Ordering.SortByTimeCanonical | StellarEmpires/Infrastructure/PlanetStateRetriever.cs:23-25 | two inputs sort to the same sequence exactly when they agree on the events at every time |
| Ordering.SortByTimeOfSorted | StellarEmpires/Infrastructure/PlanetStateRetriever.cs:23-25 | an already ascending sequence is left as it is |
| Ordering.DistinctTimesOrderIndependent | StellarEmpires/Infrastructure/PlanetStateRetriever.cs:23-25 | permutations of one another with distinct times sort to the same sequence |
| Ordering.InsertSorted | StellarEmpires/Infrastructure/PlanetStateRetriever.cs:23-25 | inserting into an ascending sequence keeps it ascending |
| Ordering.InsertAt | StellarEmpires/Infrastructure/PlanetStateRetriever.cs:23-25 | inserting puts the event after every earlier event with its time |
| Ordering.AtOfDistinctIsShort | StellarEmpires/Infrastructure/PlanetStateRetriever.cs:23-25 | with distinct times at most one event occurs at any time |
| PlanetStore.FindById | StellarEmpires/Infrastructure/PlanetStore/FilePlanetStore.cs:51-55 | nothing is found exactly when no entry has the id; otherwise the result is the entry at the first position holding the id |
| PlanetStore.FirstIndex | StellarEmpires/Infrastructure/PlanetStore/FilePlanetStore.cs:34 | the position of the first entry with the id: every earlier entry has another id |
| PlanetStore.GetPlanets | StellarEmpires/Infrastructure/PlanetStore/FilePlanetStore.cs:46-66 | a missing file reads as the empty list; an existing file's list is returned as stored, in order |
| PlanetStore.SaveTwoThenList | StellarEmpiresTests/Infrastructure/PlanetStore/FilePlanetStoreTests.cs:77-92 | two planets with distinct ids saved into a missing file are listed in the order they were saved |
| PlanetStore.GetPlanetById | StellarEmpires/Infrastructure/PlanetStore/FilePlanetStore.cs:51-55 | none exactly when no stored planet has the id; otherwise the first stored planet with the id |
| PlanetStore.SavePlanet | StellarEmpires/Infrastructure/PlanetStore/FilePlanetStore.cs:24-44 | the file exists afterwards and the saved planet is its last entry |
| PlanetStore.RemoveFirstEffect | StellarEmpires/Infrastructure/PlanetStore/FilePlanetStore.cs:34-40 | removing drops exactly the first entry with the id and keeps the rest in order |
| PlanetStore.SaveThenGet | StellarEmpires/Infrastructure/PlanetStore/FilePlanetStore.cs:33-43 | after a save, looking up the id returns the saved planet whenever at most one entry had that id |
| PlanetStore.DuplicateShadowsSave | StellarEmpires/Infrastructure/PlanetStore/FilePlanetStore.cs:34-42 | with two prior entries for an id, a save removes only the first and the lookup returns the stale second |
| PlanetStore.SaveKeepsOthers | StellarEmpiresTests/Infrastructure/PlanetStore/FilePlanetStoreTests.cs:77-92 | planets with other ids stay, in their relative order |
| PlanetStore.SaveKeepsOtherLookups | StellarEmpires/Infrastructure/PlanetStore/FilePlanetStore.cs:38-42 | looking up any other id gives the same answer before and after a save |
| PlanetStore.SavePreservesUniqueIds | StellarEmpires/Infrastructure/PlanetStore/FilePlanetStore.cs:34-42 | a save keeps ids unique |
| EventCodec.EventTypeMapExact | StellarEmpires/Infrastructure/EventStore/DomainEventJsonConverter.cs:9-15 | the table has exactly four tags, each the class name of the variant it maps to |
| EventCodec.Write | StellarEmpires/Infrastructure/EventStore/DomainEventJsonConverter.cs:44-49 | the record is tagged with the runtime variant name and carries the id and time |
| EventCodec.Read | StellarEmpires/Infrastructure/EventStore/DomainEventJsonConverter.cs:18-42 | a missing or null tag is "Missing EventType property"; a non-string tag fails reading it as a string; an unknown tag is "Event type 'X' is not supported"; a success has the record's tag |
| EventCodec.Deserialize | StellarEmpires/Infrastructure/EventStore/DomainEventJsonConverter.cs:36 | the result is of the requested variant, or a malformed-record error naming it |
| EventCodec.ReadWrite | StellarEmpires/Infrastructure/EventStore/DomainEventJsonConverter.cs:18-49 | reading a written event gives it back, except that a Mock event is stamped with the clock |
| EventCodec.WriteInjective | StellarEmpires/Infrastructure/EventStore/DomainEventJsonConverter.cs:44-49 | distinct events are written as distinct records |
| EventCodec.MissingEntityIdRejected | StellarEmpires/Events/PlanetCreatedDomainEvent.cs:12 | a record of a known non-Mock tag without `EntityId` is rejected |
| EventCodec.DecodeLogSuccess | StellarEmpires/Infrastructure/EventStore/FileEventStore.cs:79 | a list reads exactly when each element reads, and then element by element |
| EventCodec.DecodeLogFirstError | StellarEmpires/Infrastructure/EventStore/FileEventStore.cs:79 | a list that fails fails with the error of its first bad element |
| EventCodec.DecodeEncodeLog | StellarEmpires/Infrastructure/EventStore/FileEventStore.cs:65-80 | a written log reads back as its events, with Mock events stamped with the clock |
| EventStore.LoadAllEvents | StellarEmpires/Infrastructure/EventStore/FileEventStore.cs:65-80 | the events are what the converter reads back from the written log; a missing log is empty |
| EventStore.LogKeyInjective | StellarEmpires/Infrastructure/EventStore/FileEventStore.cs:82-89 | two entity types share a log exactly when their lower-cased names agree |
| EventStore.DefaultPlanet | StellarEmpires/Infrastructure/EventStore/FileEventStore.cs:48-49 | the seed is a consistent, uncolonized planet named "New Planet" with the event's id |
| EventStore.SaveEvent | StellarEmpires/Infrastructure/EventStore/FileEventStore.cs:29-39 | the type's log gains the event at its end after what was read; no other log changes; other entity types leave the snapshots alone |
| EventStore.GetEventsExact | StellarEmpires/Infrastructure/EventStore/FileEventStore.cs:57-63 | exactly the entries carrying the id, in log order, as read back; a missing log gives none |
| EventStore.SelectMembership | StellarEmpires/Infrastructure/EventStore/FileEventStore.cs:62 | an event is selected exactly when it is in the log with the id |
| EventStore.SelectRestamp | StellarEmpires/Infrastructure/EventStore/FileEventStore.cs:57-63 | restamping does not move events between entities |
| EventStore.ReplayRestamp | StellarEmpires/Events/MockDomainEvent.cs:9 | Mock clock stamps never change a replay |
| EventStore.SaveEventThenGet | StellarEmpires/Infrastructure/EventStore/FileEventStore.cs:29-63 | after a save the entity's events gain that event at the end; other entities' events are unchanged |
| EventStore.SaveAllThenGet | StellarEmpiresTests/Infrastructure/EventStore/FileEventStoreTests.cs:83-109 | saving k events of one entity and reading it back gives the earlier events plus those k, in order |
| EventStore.SaveEventRefreshesSnapshot | StellarEmpires/Infrastructure/EventStore/FileEventStore.cs:46-53 | after a planet event, the snapshot is the prior snapshot, or the "New Planet" seed, with the event applied |
| EventStore.SaveEventKeepsOtherSnapshots | StellarEmpires/Infrastructure/EventStore/FileEventStore.cs:46-53 | snapshots of other planets are unaffected |
| EventStore.SaveEventPreservesUniqueIds | StellarEmpires/Infrastructure/EventStore/FileEventStore.cs:53 | saves keep snapshot ids unique |
| EventStore.SnapshotIsReplayOfEvents | StellarEmpires/Infrastructure/EventStore/FileEventStore.cs:46-53 | under the store invariant the snapshot is the base with the entity's events replayed in log order |
| EventStore.FirstSaveStartsTracking | StellarEmpires/Infrastructure/EventStore/FileEventStore.cs:48-53 | the first event of a new planet establishes the invariant from the "New Planet" seed |
| EventStore.SaveEventKeepsTracking | StellarEmpires/Infrastructure/EventStore/FileEventStore.cs:29-53 | each later event of that planet keeps the invariant |
| EventStore.SaveOtherKeepsTracking | StellarEmpires/Infrastructure/EventStore/FileEventStore.cs:29-53 | events of other planets or other types keep it too |
| StateRetriever.GetInitialState | StellarEmpires/Infrastructure/PlanetStateRetriever.cs:35-45 | fails with "Planet not found." exactly when no snapshot has the id; otherwise the first stored snapshot with that id |
| StateRetriever.GetCurrentState | StellarEmpires/Infrastructure/PlanetStateRetriever.cs:19-33 | not found propagates; otherwise the reference outcome of the time-sorted events on the snapshot, keeping id, buffer and consistency |
| StateRetriever.NoEventsGivesInitialState | StellarEmpires/Infrastructure/PlanetStateRetriever.cs:21-32 | with no events the current state is the initial state |
| StateRetriever.CurrentStateOrderIndependent | StellarEmpiresTests/Infrastructure/PlanetStateRetrieverTests.cs:101-143 | with distinct times the logging order of the events does not matter |
| StateRetriever.SortedLastColonization | StellarEmpires/Infrastructure/PlanetStateRetriever.cs:23-30 | after sorting, the last colonization is one with the greatest time |
| StateRetriever.LatestColonizationWins | StellarEmpiresTests/Infrastructure/PlanetStateRetrieverTests.cs:141-142 | the colonizer and time come from a Colonized event with the greatest time |
| StateRetriever.CurrentStateFromBase | StellarEmpires/Infrastructure/PlanetStateRetriever.cs:21-32 | applying events again on a snapshot that already reflects them equals one sorted replay on the base |
| StateRetriever.SortedLogGivesSnapshot | StellarEmpires/Infrastructure/PlanetStateRetriever.cs:21-32 | when the events were logged in time order, the current state is the snapshot |
| PlanetRepository.GetById | StellarEmpires/Infrastructure/PlanetRepository.cs:16-35 | a missing list file fails; an unknown id fails with the argument error; otherwise the reference outcome of the events in log order on the copy |
| PlanetRepository.ReplayIgnoresBuffer | StellarEmpires/Infrastructure/PlanetRepository.cs:25-32 | replaying on the copy is the copy of the replay |
| PlanetRepository.AgreesWithRetrieverOnSortedLog | StellarEmpires/Infrastructure/PlanetRepository.cs:27-32 | for any static list holding the planet as the state its snapshot is replayed from, on a time-sorted log both read paths succeed and agree, up to the buffer |
| PlanetRepository.NoEventsGivesListedPlanet | StellarEmpiresTests/PlanetRepositoryTests.cs:25-50 | with no events the result is the listed planet field for field |
| Queries.Handle | StellarEmpires/Application/Queries/PlanetQueryHandler.cs:15-25 | "Planet not found." exactly when the snapshot store has nothing for the id; otherwise exactly the snapshot the store returns, with no replay |
| Commands.CreatePlanet | StellarEmpires/Application/Commands/CreatePlanetCommandHandler.cs:18-35 | a known id fails as a duplicate; a pair violation propagates; otherwise exactly one save of the Created event for the id; a failure saves nothing |
| Commands.ColonizePlanet | StellarEmpires/Application/Commands/ColonizePlanetCommandHandler.cs:19-31 | not found and already colonized, judged on the replayed current state, fail; otherwise exactly one save of the Colonized event for the player at `now` |
| Commands.RenamePlanet | StellarEmpires/Application/Commands/RenamePlanetCommandHandler.cs:19-31 | not found, a non-colonizer and an invalid name fail; otherwise exactly one save of the Renamed event with the command's name |
| Commands.SavedPlanetIsFound | StellarEmpires/Infrastructure/EventStore/FileEventStore.cs:46-53 | after any planet event the query side finds the planet |
| Commands.CreateThenQuery | StellarEmpires/Application/Commands/CreatePlanetCommandHandler.cs:26-34 | after a create the snapshot is the "New Planet" seed renamed, and never colonized |
| Commands.CreateStartsTracking | StellarEmpires/Application/Commands/CreatePlanetCommandHandler.cs:34 | a create on a fresh id starts the store invariant |
| Commands.ColonizeThenQuery | StellarEmpires/Application/Commands/ColonizePlanetCommandHandler.cs:28-30 | after a colonize the snapshot names the player and the time |
| Commands.ColonizeTwiceFails | StellarEmpiresTests/Applications/Commands/ColonizePlanetCommandHandlerTests.cs:79-97 | after a colonize every later colonize of that planet fails as already colonized |
| Commands.UncolonizedCannotBeRenamed | StellarEmpiresTests/Domain/PlanetTests.cs:183-195 | an uncolonized planet cannot be renamed by anyone |
| Scenarios.CreateThenColonizeSucceeds | StellarEmpires/Application/Commands/CreatePlanetCommandHandler.cs:18-35 | on an empty store every consistent create succeeds, and any player can then colonize the new planet, even one created as colonized |
| Scenarios.CreateColonizeRead | StellarEmpires/Application/Commands/ColonizePlanetCommandHandler.cs:19-31 | for any command, player and times t1 <= t2: after a create and a colonize, the current state has the id, the name, the colonizer and the time |
| Scenarios.InjectedEarlierColonization | StellarEmpires/Infrastructure/PlanetStateRetriever.cs:23-30 | after a create and a colonize by one player, an earlier-dated colonization by another player appended to the log: the current state names the first player and the snapshot names the other; the repository names the other when its static list holds the planet, and otherwise reports it not found |
| Scenarios.LaterDatedColonizerWins | StellarEmpires/Infrastructure/PlanetStateRetriever.cs:23-30 | of two colonizations the later-dated one decides, whatever the log order |
| Scenarios.RenameAfterColonize | StellarEmpiresTests/Domain/PlanetTests.cs:198-257 | after a create and a colonize, the colonizer gets the name error for an empty or missing name, and any other player gets the colonizer error |
| Scenarios.UnknownPlanet | StellarEmpires/Application/Commands/ColonizePlanetCommandHandler.cs:21-26 | after a create and a colonize, any other id is not found by the query, the retriever or a colonize |
| Scenarios.UnknownTagRejected | StellarEmpiresTests/Infrastructure/EventStore/DomainEventJsonConverterTests.cs:63-77 | an unknown tag raises the not-implemented error with the expected message |
| Scenarios.MissingTagRejected | StellarEmpiresTests/Infrastructure/EventStore/DomainEventJsonConverterTests.cs:80-93 | a record without a tag raises the JSON error "Missing EventType property" |
| Scenarios.MockReadsTheClock | StellarEmpiresTests/Infrastructure/EventStore/DomainEventJsonConverterTests.cs:40-60 | a Mock record reads with the clock's time and, without an id, the empty id |
| Int32.Wrap | StellarEmpires/Services/ResourcesService.cs:29 | the stored value is the 32-bit value congruent to the exact result, and equals it when it fits |
| Int32.WrapAdd | StellarEmpires/Services/ResourcesService.cs:23-33 | wrapping after every addition equals wrapping once |
| Int32.TruncDiv | StellarEmpires/Services/ResourcesService.cs:29 | the quotient rounds toward zero, and is zero exactly when the dividend is smaller than the divisor in magnitude |
| Resources.GetInitialResourceAmount | StellarEmpires/Services/ResourcesService.cs:43-48 | the table's Metal 100, Crystal 50 and Deuterium 25 (lines 9-14), anything else 0 |
| Resources.GetCurrentResourceAmount | StellarEmpires/Services/ResourcesService.cs:36-41 | the cached amount when present; an absent type reads as 100 for metal, 50 for crystal, 25 for deuterium and 0 for any other type |
| Resources.HasEnoughResources | StellarEmpires/Services/ResourcesService.cs:50-62 | true exactly when every cost is at most the current amount of its resource; an empty cost map gives true |
| Resources.DeductOne | StellarEmpires/Services/ResourcesService.cs:69-72 | a cost at or above the amount leaves 0; a smaller one is subtracted with wrap-around |
| Resources.DeductOneNonNegative | StellarEmpires/Services/ResourcesService.cs:71-72 | a non-negative cost never leaves a negative amount, nor a larger one |
| Resources.DeductOneExact | StellarEmpires/Services/ResourcesService.cs:69-72 | a covered non-negative cost is taken off exactly |
| Resources.DeductOneNegativeCostWraps | StellarEmpires/Services/ResourcesService.cs:72 | a cost of `int.MinValue` taken from 100 wraps to a negative amount |
| Resources.DeductResources | StellarEmpires/Services/ResourcesService.cs:64-77 | each listed type gets its clamped deduction; unlisted entries are untouched; with non-negative costs no listed amount goes negative, and when affordable each drops by exactly its cost |
| Resources.PerTick | StellarEmpires/Services/ResourcesService.cs:29 | a mine's tick is its hourly rate divided by 3600 toward zero, and zero for rates below 3600 in magnitude |
| Resources.Tick | StellarEmpires/Services/ResourcesService.cs:26-32 | one mine adds its tick to its own type only |
| Resources.IncreaseResources | StellarEmpires/Services/ResourcesService.cs:21-34 | every type ends at its start plus the ticks of its mines, wrapped; types with no mine, and all types when every rate is below 3600, are unchanged |
| Resources.SlowMinesAccrueNothing | StellarEmpires/Services/ResourcesService.cs:29 | mines below 3600 per hour add nothing |

## Left out

- HTTP controllers, DTOs and `Program.cs`: these are transport and wiring.
- The Azure blob event store: the SDK is not part of this model.
- StateRetriever.GetCurrentState: reads the file event store the handlers append to, where the source binds the retriever to the other `IEventStore` interface. Every result that runs a handler and then reads through the retriever holds only under this choice: the colonize and rename handlers judging on the replayed state, `Commands.ColonizeTwiceFails`, `Scenarios.CreateColonizeRead`, `Scenarios.RenameAfterColonize`, `Scenarios.InjectedEarlierColonization` and `Scenarios.LaterDatedColonizerWins`.
- PlanetRepository.GetById: reads the file event store's logs, Mock restamping included, where the application wires in the Azure blob store. Results that compare the repository with the retriever hold for one shared event store only; its static planet list is a separate parameter.
- EventStore.LogKey: only ASCII letters are lower-cased. .NET's culture-sensitive `ToLower()` also lowers other letters, and under some cultures maps `I` differently, so `EventStore.LogKeyInjective` is a statement about the model's `Lower`.
- The superseded `Infrastructure/EvenStore` revision and the interface files: they carry no behaviour the handlers use.
- The mine service's floating-point cost and rate formulas, the mine events, and the background timer loop: floating point and scheduling are outside the model.
- The event `Id`: it is a fresh `Guid.NewGuid()` on every read and is never compared.
- JSON text, property-name case-insensitivity, directories and file paths beyond the `events-<type>` key: records are property maps and files are values.
- A log file holding the JSON literal `null`, which the source reads as an empty list: logs are only ever written by the converter.
- Concurrent handlers: each handler is one atomic step, so the append/refresh race across requests is not modelled.
- Snapshot serialization: snapshots are stored as whole planet values, pending-event buffer included. The `Entity` base class that owns the buffer is not part of this model.
- EventCodec.Deserialize: a `null` `PlanetName` is rejected as malformed. The source's serializer would instead store a null name, which the model's `string` cannot hold.
- Resources: the cache is keyed by the resource type itself rather than by `ToString()` of it, which is injective on enum values.
- PlanetRepository.GetById: a planet list that is the JSON literal `null`, which the source reads as empty, is not distinguished from an empty list.

=== FILE: commands.dfy ===
/** The write side: each command loads what it needs, runs the aggregate's
    operation and appends the one event it raised
    (the three command handlers under Application/Commands). A failed command leaves both
    stores as they were; a successful one is exactly one `SaveEvent`. */
module Commands {
  import opened Wrappers
  import opened Events
  import opened Errors
  import opened Planets
  import opened PlanetStore
  import opened EventStore
  import opened EventCodec
  import opened Ordering
  import opened History
  import opened StateRetriever
  import opened Queries

  datatype CreatePlanetCommand = CreatePlanetCommand(
    id: Guid, name: string, isColonized: bool, colonizedBy: Option<Guid>, colonizedAt: Option<Time>)

  datatype ColonizePlanetCommand = ColonizePlanetCommand(planetId: Guid, playerId: Guid)

  /** `PlanetName` is `None` when the request carried a null name. */
  datatype RenamePlanetCommand = RenamePlanetCommand(planetId: Guid, playerId: Guid, planetName: Option<string>)

  /** The last event an operation raised, `DomainEvents.Last()`. */
  function LastRaised(p: Planet): Event
    requires |p.domainEvents| > 0
  {
    p.domainEvents[|p.domainEvents| - 1]
  }

  /** `CreatePlanetAsync`: reject a known id, validate through the factory,
      then append the Created event. */
  function CreatePlanet(s: Stores, c: CreatePlanetCommand, now: Time): (r: Result<Stores, Error>)
    ensures r.Success? <==> Handle(s, c.id).Failure? && PairConsistent(c.isColonized, c.colonizedBy, c.colonizedAt)
    ensures Handle(s, c.id).Success? ==> r == Failure(DuplicatePlanet)
    ensures Handle(s, c.id).Failure? && !PairConsistent(c.isColonized, c.colonizedBy, c.colonizedAt) ==>
      r == Failure(if c.isColonized then ColonizedWithoutColonizer else UncolonizedWithColonizer)
    ensures r.Success? ==> r.value == SaveEvent(s, PlanetType, Event(c.id, now, PlanetCreated(c.name)), now)
  {
    if GetPlanetById(s.planetFile, c.id).Some? then
      Failure(DuplicatePlanet)
    else
      var planet :- Create(c.id, c.name, c.isColonized, c.colonizedBy, c.colonizedAt, now);
      Success(SaveEvent(s, PlanetType, LastRaised(planet), now))
  }

  /** `ColonizePlanetAsync`: rebuild the current state, colonize it, append
      the Colonized event. */
  function ColonizePlanet(s: Stores, c: ColonizePlanetCommand, now: Time): (r: Result<Stores, Error>)
    ensures r.Success? <==> GetCurrentState(s, c.planetId, now).Success? && !GetCurrentState(s, c.planetId, now).value.isColonized
    ensures GetCurrentState(s, c.planetId, now).Failure? ==> r == Failure(PlanetNotFound)
    ensures GetCurrentState(s, c.planetId, now).Success? && GetCurrentState(s, c.planetId, now).value.isColonized ==>
      r == Failure(AlreadyColonized)
    ensures r.Success? ==> r.value == SaveEvent(s, PlanetType, Event(c.planetId, now, PlanetColonized(c.playerId)), now)
  {
    var current :- GetCurrentState(s, c.planetId, now);
    var planet :- Colonize(current, c.playerId, now);
    Success(SaveEvent(s, PlanetType, LastRaised(planet), now))
  }

  /** `RenamePlanetAsync`: rebuild the current state, rename it on behalf of
      the player, append the Renamed event. */
  function RenamePlanet(s: Stores, c: RenamePlanetCommand, now: Time): (r: Result<Stores, Error>)
    ensures r.Success? <==>
      GetCurrentState(s, c.planetId, now).Success? &&
      IsColonizer(GetCurrentState(s, c.planetId, now).value, c.playerId) &&
      c.planetName.Some? && c.planetName.value != ""
    ensures GetCurrentState(s, c.planetId, now).Failure? ==> r == Failure(PlanetNotFound)
    ensures GetCurrentState(s, c.planetId, now).Success? && !IsColonizer(GetCurrentState(s, c.planetId, now).value, c.playerId) ==>
      r == Failure(NotColonizer)
    ensures r.Success? ==> r.value == SaveEvent(s, PlanetType, Event(c.planetId, now, PlanetRenamed(c.planetName.value)), now)
  {
    var current :- GetCurrentState(s, c.planetId, now);
    var planet :- Rename(current, c.planetName, c.playerId, now);
    Success(SaveEvent(s, PlanetType, LastRaised(planet), now))
  }

  /** A successful command leaves a snapshot of its planet that the query
      side can find. */
  lemma SavedPlanetIsFound(s: Stores, e: Event, now: Time)
    ensures Handle(SaveEvent(s, PlanetType, e, now), e.entityId).Success?
  {
    var r := SaveEvent(s, PlanetType, e, now);
    var ps := LoadPlanets(r.planetFile);
    assert ps[|ps| - 1].id == e.entityId;
  }

  /** After a create, the query side sees the "New Planet" default renamed to
      the requested name, and it is NOT colonized even when the command asked
      for a colonized planet: the Created event carries only the name. */
  lemma CreateThenQuery(s: Stores, c: CreatePlanetCommand, now: Time)
    requires UniqueIds(LoadPlanets(s.planetFile))
    requires CreatePlanet(s, c, now).Success?
    ensures Handle(CreatePlanet(s, c, now).value, c.id) == Success(DefaultPlanet(c.id, now).(name := c.name))
    ensures !Handle(CreatePlanet(s, c, now).value, c.id).value.isColonized
  {
    var e := Event(c.id, now, PlanetCreated(c.name));
    UniqueCountAtMostOne(LoadPlanets(s.planetFile), c.id);
    SaveEventRefreshesSnapshot(s, e, now);
  }

  /** After a create on a planet with no earlier events, replaying agrees with
      the snapshot and the planet is tracked from the default from then on. */
  lemma CreateStartsTracking(s: Stores, c: CreatePlanetCommand, now: Time)
    requires UniqueIds(LoadPlanets(s.planetFile))
    requires Select(StoredEvents(s.logs, LogKey(PlanetType)), c.id) == []
    requires CreatePlanet(s, c, now).Success?
    ensures SnapshotTracksLog(CreatePlanet(s, c, now).value, c.id, DefaultPlanet(c.id, now))
  {
    FirstSaveStartsTracking(s, Event(c.id, now, PlanetCreated(c.name)), now);
  }

  /** After a colonize, the snapshot names the player and the time. */
  lemma ColonizeThenQuery(s: Stores, c: ColonizePlanetCommand, now: Time)
    requires UniqueIds(LoadPlanets(s.planetFile))
    requires ColonizePlanet(s, c, now).Success?
    ensures var q := Handle(ColonizePlanet(s, c, now).value, c.planetId);
      q.Success? && q.value.isColonized && q.value.colonizedBy == Some(c.playerId) && q.value.colonizedAt == Some(now)
  {
    var e := Event(c.planetId, now, PlanetColonized(c.playerId));
    UniqueCountAtMostOne(LoadPlanets(s.planetFile), c.planetId);
    SaveEventRefreshesSnapshot(s, e, now);
  }

  /** Once a planet has been colonized, every later colonize command for it
      fails, whoever sends it and whenever. */
  lemma ColonizeTwiceFails(s: Stores, c: ColonizePlanetCommand, now: Time, c2: ColonizePlanetCommand, later: Time)
    requires ColonizePlanet(s, c, now).Success?
    requires c2.planetId == c.planetId
    ensures ColonizePlanet(ColonizePlanet(s, c, now).value, c2, later) == Failure(AlreadyColonized)
  {
    var e := Event(c.planetId, now, PlanetColonized(c.playerId));
    var r := ColonizePlanet(s, c, now).value;
    SavedPlanetIsFound(s, e, now);
    SaveEventThenGet(s, PlanetType, e, now, c.planetId, later);
    var events := GetEvents(r.logs, PlanetType, c.planetId, later);
    assert events[|events| - 1] == e;
    SortedLastColonization(events);
  }

  /** Renaming requires being the recorded colonizer: a planet that was never
      colonized cannot be renamed by anyone. */
  lemma UncolonizedCannotBeRenamed(s: Stores, c: RenamePlanetCommand, now: Time)
    requires GetCurrentState(s, c.planetId, now).Success?
    requires !GetCurrentState(s, c.planetId, now).value.isColonized
    ensures RenamePlanet(s, c, now) == Failure(NotColonizer)
  {
  }
}

=== FILE: errors.dfy ===
/** The failures of the core, one per exception the source throws. */
module Errors {

  /** The .NET exception type each failure is raised as. */
  datatype ExceptionType =
    | InvalidOperationException
    | ArgumentException
    | NotImplementedException
    | JsonException
    | FileNotFoundException

  datatype Error =
    | PlanetNotFound
    | RepositoryPlanetNotFound
    | DuplicatePlanet
    | AlreadyColonized
    | InvalidName
    | NotColonizer
    | UncolonizedWithColonizer
    | ColonizedWithoutColonizer
    | UnsupportedEventType(tag: string)
    | MissingEventType
    | EventTypeNotString
    | MalformedEvent(tag: string)
    | MissingPlanetFile
  {
    /** The exception message. For the last three failures the text is the
        .NET library's, which the model does not reproduce. */
    function Message(): string {
      match this
      case PlanetNotFound => "Planet not found."
      case RepositoryPlanetNotFound => "Planet not found."
      case DuplicatePlanet => "Planet with the same ID already exists."
      case AlreadyColonized => "Planet is already colonized."
      case InvalidName => "New name is either null or empty."
      case NotColonizer => "Only the player who colonized the planet can rename it."
      case UncolonizedWithColonizer => "If the planet is not colonized, colonizedBy and colonizedAt must be null."
      case ColonizedWithoutColonizer => "If the planet is colonized, colonizedBy and colonizedAt must not be null."
      case UnsupportedEventType(tag) => "Event type '" + tag + "' is not supported"
      case MissingEventType => "Missing EventType property"
      case EventTypeNotString => "EventType is not a string"
      case MalformedEvent(tag) => "Could not deserialize " + tag
      case MissingPlanetFile => "Could not find the planets file"
    }

    function Exception(): ExceptionType {
      match this
      case RepositoryPlanetNotFound => ArgumentException
      case UnsupportedEventType(_) => NotImplementedException
      case MissingEventType => JsonException
      case EventTypeNotString => InvalidOperationException
      case MalformedEvent(_) => JsonException
      case MissingPlanetFile => FileNotFoundException
      case _ => InvalidOperationException
    }
  }
}

=== FILE: event_codec.dfy ===
/** The discriminated serialization of domain events
    (Infrastructure/EventStore/DomainEventJsonConverter.cs). A JSON object is
    modelled as a map from property names to values. */
module EventCodec {
  import opened Wrappers
  import opened Events
  import opened Errors

  /** The JSON values an event property can hold. */
  datatype Value = Null | Text(text: string) | Uuid(uuid: Guid) | Instant(instant: Time)

  type Record = map<string, Value>

  const EventTypeKey: string := "EventType"
  const EntityIdKey: string := "EntityId"
  const OccurredOnKey: string := "OccurredOn"
  const PlanetNameKey: string := "PlanetName"
  const PlayerIdKey: string := "PlayerId"

  /** `_eventTypeMap`: the four supported tags. */
  const EventTypeMap: map<string, Kind> := map[
    MockKind.Name() := MockKind,
    ColonizedKind.Name() := ColonizedKind,
    RenamedKind.Name() := RenamedKind,
    CreatedKind.Name() := CreatedKind]

  /** The table has exactly four entries and maps each class name to its class. */
  lemma EventTypeMapExact()
    ensures |EventTypeMap| == 4
    ensures forall k: Kind :: k.Name() in EventTypeMap && EventTypeMap[k.Name()] == k
    ensures forall tag :: tag in EventTypeMap ==> EventTypeMap[tag].Name() == tag
  {
    assert EventTypeMap.Keys == {MockKind.Name(), ColonizedKind.Name(), RenamedKind.Name(), CreatedKind.Name()};
  }

  /** `Write`: the event serialized as its own concrete type. The computed `Id`
      property is not part of the model. For a Mock event the source writes
      the clock at write time, since its `OccurredOn` is a getter; the model
      writes the stored time instead. The difference is never observable,
      because `Read` stamps every Mock event with the reading clock. */
  function Write(e: Event): (r: Record)
    ensures EventTypeKey in r && r[EventTypeKey] == Text(e.payload.EventType())
    ensures EntityIdKey in r && r[EntityIdKey] == Uuid(e.entityId)
    ensures OccurredOnKey in r && r[OccurredOnKey] == Instant(e.occurredOn)
  {
    var common := map[EventTypeKey := Text(e.payload.EventType()),
                      EntityIdKey := Uuid(e.entityId),
                      OccurredOnKey := Instant(e.occurredOn)];
    match e.payload
    case PlanetCreated(n) => common[PlanetNameKey := Text(n)]
    case PlanetRenamed(n) => common[PlanetNameKey := Text(n)]
    case PlanetColonized(pl) => common[PlayerIdKey := Uuid(pl)]
    case Mock => common
  }

  /** What reading gives back for a written event: everything, except that a
      Mock event's `OccurredOn` is a getter returning the clock. */
  function Restamp(e: Event, now: Time): (r: Event)
    ensures r.entityId == e.entityId && r.payload == e.payload
    ensures r.occurredOn == (if e.payload.Mock? then now else e.occurredOn)
  {
    if e.payload.Mock? then e.(occurredOn := now) else e
  }

  function RestampAll(s: seq<Event>, now: Time): (r: seq<Event>)
    ensures |r| == |s|
    ensures forall i :: 0 <= i < |s| ==> r[i] == Restamp(s[i], now)
  {
    seq(|s|, i requires 0 <= i < |s| => Restamp(s[i], now))
  }

  /** A required `Guid` property. */
  function RequiredUuid(rec: Record, key: string, tag: string): (r: Result<Guid, Error>)
    ensures r.Success? <==> key in rec && rec[key].Uuid?
    ensures r.Success? ==> rec[key] == Uuid(r.value)
    ensures r.Failure? ==> r.error == MalformedEvent(tag)
  {
    if key in rec && rec[key].Uuid? then Success(rec[key].uuid) else Failure(MalformedEvent(tag))
  }

  /** A required `string` property. */
  function RequiredText(rec: Record, key: string, tag: string): (r: Result<string, Error>)
    ensures r.Success? <==> key in rec && rec[key].Text?
    ensures r.Success? ==> rec[key] == Text(r.value)
    ensures r.Failure? ==> r.error == MalformedEvent(tag)
  {
    if key in rec && rec[key].Text? then Success(rec[key].text) else Failure(MalformedEvent(tag))
  }

  /** An `init` property with a default: absent means the default. */
  function OptionalInstant(rec: Record, key: string, default: Time, tag: string): (r: Result<Time, Error>)
    ensures key !in rec ==> r == Success(default)
    ensures key in rec ==> (r.Success? <==> rec[key].Instant?)
    ensures key in rec && r.Success? ==> rec[key] == Instant(r.value)
    ensures r.Failure? ==> r.error == MalformedEvent(tag)
  {
    if key !in rec then Success(default)
    else if rec[key].Instant? then Success(rec[key].instant)
    else Failure(MalformedEvent(tag))
  }

  function OptionalUuid(rec: Record, key: string, default: Guid, tag: string): (r: Result<Guid, Error>)
    ensures key !in rec ==> r == Success(default)
    ensures key in rec ==> (r.Success? <==> rec[key].Uuid?)
    ensures key in rec && r.Success? ==> rec[key] == Uuid(r.value)
    ensures r.Failure? ==> r.error == MalformedEvent(tag)
  {
    if key !in rec then Success(default)
    else if rec[key].Uuid? then Success(rec[key].uuid)
    else Failure(MalformedEvent(tag))
  }

  /** `JsonSerializer.Deserialize(raw, targetType)` for each supported class.
      Unknown properties, such as `EventType` and `Id`, are ignored. */
  function Deserialize(rec: Record, k: Kind, now: Time): (r: Result<Event, Error>)
    ensures r.Success? ==> r.value.payload.Kind() == k
    ensures r.Failure? ==> r.error == MalformedEvent(k.Name())
  {
    var tag := k.Name();
    match k
    case CreatedKind =>
      var id :- RequiredUuid(rec, EntityIdKey, tag);
      var name :- RequiredText(rec, PlanetNameKey, tag);
      var at :- OptionalInstant(rec, OccurredOnKey, now, tag);
      Success(Event(id, at, PlanetCreated(name)))
    case RenamedKind =>
      var id :- RequiredUuid(rec, EntityIdKey, tag);
      var name :- RequiredText(rec, PlanetNameKey, tag);
      var at :- OptionalInstant(rec, OccurredOnKey, now, tag);
      Success(Event(id, at, PlanetRenamed(name)))
    case ColonizedKind =>
      var id :- RequiredUuid(rec, EntityIdKey, tag);
      var player :- RequiredUuid(rec, PlayerIdKey, tag);
      var at :- OptionalInstant(rec, OccurredOnKey, now, tag);
      Success(Event(id, at, PlanetColonized(player)))
    case MockKind =>
      var id :- OptionalUuid(rec, EntityIdKey, EmptyGuid, tag);
      Success(Event(id, now, Mock))
  }

  /** `Read`: dispatch on the `EventType` discriminator. */
  function Read(rec: Record, now: Time): (r: Result<Event, Error>)
    ensures (EventTypeKey !in rec || rec[EventTypeKey] == Null) <==> r == Failure(MissingEventType)
    ensures EventTypeKey in rec && !rec[EventTypeKey].Null? && !rec[EventTypeKey].Text? ==> r == Failure(EventTypeNotString)
    ensures EventTypeKey in rec && rec[EventTypeKey].Text? && rec[EventTypeKey].text !in EventTypeMap ==>
      r == Failure(UnsupportedEventType(rec[EventTypeKey].text))
    ensures r.Success? ==> EventTypeKey in rec && rec[EventTypeKey] == Text(r.value.payload.EventType())
  {
    if EventTypeKey !in rec then Failure(MissingEventType)
    else match rec[EventTypeKey]
      case Null => Failure(MissingEventType)
      case Text(tag) =>
        if tag !in EventTypeMap then Failure(UnsupportedEventType(tag))
        else
          EventTypeMapExact();
          Deserialize(rec, EventTypeMap[tag], now)
      case _ => Failure(EventTypeNotString)
  }

  /** Round trip: reading what was written gives the event back, up to the
      clock-valued `OccurredOn` of a Mock event. */
  lemma ReadWrite(e: Event, now: Time)
    ensures Read(Write(e), now) == Success(Restamp(e, now))
  {
    EventTypeMapExact();
  }

  /** Writing is injective on everything reading can observe. */
  lemma WriteInjective(a: Event, b: Event)
    requires Write(a) == Write(b)
    ensures a == b
  {
    ReadWrite(a, 0);
    ReadWrite(b, 0);
    if a.payload.Mock? {
      assert Write(a)[OccurredOnKey] == Instant(a.occurredOn);
    }
  }

  /** A record written from a known tag but missing a required property is
      rejected with that tag. */
  lemma MissingEntityIdRejected(rec: Record, now: Time)
    requires EventTypeKey in rec && rec[EventTypeKey].Text? && rec[EventTypeKey].text in EventTypeMap
    requires EntityIdKey !in rec
    requires rec[EventTypeKey].text != MockKind.Name()
    ensures Read(rec, now) == Failure(MalformedEvent(rec[EventTypeKey].text))
  {
    EventTypeMapExact();
  }

  /** The file form of a log: the list, element by element. */
  function EncodeLog(s: seq<Event>): (r: seq<Record>)
    ensures |r| == |s|
    ensures forall i :: 0 <= i < |s| ==> r[i] == Write(s[i])
  {
    seq(|s|, i requires 0 <= i < |s| => Write(s[i]))
  }

  /** Reading a list stops at the first element that does not read. */
  function DecodeLog(recs: seq<Record>, now: Time): (r: Result<seq<Event>, Error>)
    decreases |recs|
  {
    if |recs| == 0 then Success([])
    else
      var head :- Read(recs[0], now);
      var tail :- DecodeLog(recs[1..], now);
      Success([head] + tail)
  }

  /** A list decodes exactly when every element does, and then element-wise. */
  lemma {:induction false} DecodeLogSuccess(recs: seq<Record>, now: Time)
    ensures DecodeLog(recs, now).Success? <==> forall i :: 0 <= i < |recs| ==> Read(recs[i], now).Success?
    ensures DecodeLog(recs, now).Success? ==>
      |DecodeLog(recs, now).value| == |recs| &&
      forall i :: 0 <= i < |recs| ==> DecodeLog(recs, now).value[i] == Read(recs[i], now).value
    decreases |recs|
  {
    if |recs| > 0 {
      DecodeLogSuccess(recs[1..], now);
      assert forall i :: 1 <= i < |recs| ==> recs[i] == recs[1..][i - 1];
    }
  }

  /** A list that fails fails with the error of its first bad element. */
  lemma {:induction false} DecodeLogFirstError(recs: seq<Record>, now: Time, k: nat)
    requires k < |recs| && Read(recs[k], now).Failure?
    requires forall i :: 0 <= i < k ==> Read(recs[i], now).Success?
    ensures DecodeLog(recs, now) == Failure(Read(recs[k], now).error)
    decreases k
  {
    if k > 0 {
      assert forall i :: 0 <= i < k - 1 ==> recs[1..][i] == recs[i + 1];
      DecodeLogFirstError(recs[1..], now, k - 1);
    }
  }

  /** Round trip of a whole log. */
  lemma {:induction false} DecodeEncodeLog(s: seq<Event>, now: Time)
    ensures DecodeLog(EncodeLog(s), now) == Success(RestampAll(s, now))
    decreases |s|
  {
    if |s| > 0 {
      ReadWrite(s[0], now);
      assert EncodeLog(s)[1..] == EncodeLog(s[1..]);
      DecodeEncodeLog(s[1..], now);
      assert RestampAll(s, now) == [Restamp(s[0], now)] + RestampAll(s[1..], now);
    }
  }
}

=== FILE: event_store.dfy ===
/** The append-only event log, one log per entity type, and the snapshot
    refresh after each append (Infrastructure/EventStore/FileEventStore.cs). */
module EventStore {
  import opened Wrappers
  import opened Events
  import opened Planets
  import opened PlanetStore
  import opened EventCodec

  /** An entity type, known by its C# type name (`typeof(TEntity).Name`). */
  datatype EntityType = EntityType(name: string)

  const PlanetType: EntityType := EntityType("Planet")

  /** ASCII lower-casing of one character. */
  function LowerChar(c: char): char {
    if 'A' <= c <= 'Z' then (c as int + 32) as char else c
  }

  function Lower(s: string): (r: string)
    ensures |r| == |s|
    ensures forall i :: 0 <= i < |s| ==> r[i] == LowerChar(s[i])
  {
    seq(|s|, i requires 0 <= i < |s| => LowerChar(s[i]))
  }

  const LogPrefix: string := "events-"

  /** `GetFilePathForEntity`: the log's name without directory and extension. */
  function LogKey(t: EntityType): string {
    LogPrefix + Lower(t.name)
  }

  /** Every log file, by key; a key that is absent is a file that does not exist. */
  type EventLogs = map<string, seq<Event>>

  /** The event store together with the snapshot store it refreshes. */
  datatype Stores = Stores(logs: EventLogs, planetFile: PlanetFile)

  /** The events a log file holds, as they were written; a missing file holds none. */
  function StoredEvents(logs: EventLogs, key: string): (r: seq<Event>)
    ensures key !in logs ==> r == []
  {
    if key in logs then logs[key] else []
  }

  /** `LoadAllEventsAsync`: the file is read back through the converter, so
      each Mock event comes back stamped with the clock. */
  function LoadAllEvents(logs: EventLogs, key: string, now: Time): (r: seq<Event>)
    ensures DecodeLog(EncodeLog(StoredEvents(logs, key)), now) == Success(r)
    ensures key !in logs ==> r == []
  {
    DecodeEncodeLog(StoredEvents(logs, key), now);
    RestampAll(StoredEvents(logs, key), now)
  }

  /** `FindAll(e => e.EntityId == id)`. */
  function Select(s: seq<Event>, id: Guid): seq<Event>
    decreases |s|
  {
    if |s| == 0 then []
    else Select(s[..|s| - 1], id) + (if s[|s| - 1].entityId == id then [s[|s| - 1]] else [])
  }

  /** `GetEventsAsync<TEntity>(id)`, read at time `now`. */
  function GetEvents(logs: EventLogs, t: EntityType, id: Guid, now: Time): seq<Event> {
    Select(LoadAllEvents(logs, LogKey(t), now), id)
  }

  /** The base a Planet snapshot is refreshed from when none is stored yet:
      `Planet.Create(id, "New Planet", false, null, null)` at time `now`. */
  function DefaultPlanet(id: Guid, now: Time): (p: Planet)
    ensures p.id == id && p.name == "New Planet" && !p.isColonized && Consistent(p)
  {
    match Create(id, "New Planet", false, None, None, now)
    case Success(p) => p
    case Failure(_) => assert false; Planet(id, "New Planet", false, None, None, [])
  }

  /** `SaveEntityState<TEntity>`: only Planet events refresh a snapshot. */
  function SaveEntityState(file: PlanetFile, t: EntityType, e: Event, now: Time): PlanetFile {
    if t == PlanetType then
      var base := match GetPlanetById(file, e.entityId)
        case Some(p) => p
        case None => DefaultPlanet(e.entityId, now);
      SavePlanet(file, Apply(base, e))
    else
      file
  }

  /** `SaveEventAsync<TEntity>`: load the type's log, append, write it back,
      then refresh the snapshot. */
  function SaveEvent(s: Stores, t: EntityType, e: Event, now: Time): (r: Stores)
    ensures StoredEvents(r.logs, LogKey(t)) == LoadAllEvents(s.logs, LogKey(t), now) + [e]
    ensures forall k :: k != LogKey(t) ==> StoredEvents(r.logs, k) == StoredEvents(s.logs, k)
    ensures t != PlanetType ==> r.planetFile == s.planetFile
  {
    var key := LogKey(t);
    Stores(s.logs[key := LoadAllEvents(s.logs, key, now) + [e]], SaveEntityState(s.planetFile, t, e, now))
  }

  /** Saving several events one after the other. */
  function SaveAll(s: Stores, t: EntityType, es: seq<Event>, now: Time): Stores
    decreases |es|
  {
    if |es| == 0 then s else SaveEvent(SaveAll(s, t, es[..|es| - 1], now), t, es[|es| - 1], now)
  }

  /** Two entity types share a log exactly when their lower-cased names agree;
      in particular types with different lower-cased names never share one. */
  lemma LogKeyInjective(a: EntityType, b: EntityType)
    ensures LogKey(a) == LogKey(b) <==> Lower(a.name) == Lower(b.name)
  {
    if LogKey(a) == LogKey(b) {
      assert Lower(a.name) == LogKey(a)[|LogPrefix|..];
      assert Lower(b.name) == LogKey(b)[|LogPrefix|..];
    }
  }

  lemma {:induction false} SelectMembership(s: seq<Event>, id: Guid, x: Event)
    ensures x in Select(s, id) <==> x in s && x.entityId == id
    decreases |s|
  {
    if |s| > 0 {
      SelectMembership(s[..|s| - 1], id, x);
      assert s == s[..|s| - 1] + [s[|s| - 1]];
    }
  }

  lemma {:induction false} SelectConcat(a: seq<Event>, b: seq<Event>, id: Guid)
    ensures Select(a + b, id) == Select(a, id) + Select(b, id)
    decreases |b|
  {
    if |b| == 0 {
      assert a + b == a;
    } else {
      assert (a + b)[..|a + b| - 1] == a + b[..|b| - 1];
      SelectConcat(a, b[..|b| - 1], id);
    }
  }

  /** Stamping the clock onto Mock events does not move any event between
      entities. */
  lemma {:induction false} SelectRestamp(s: seq<Event>, id: Guid, now: Time)
    ensures Select(RestampAll(s, now), id) == RestampAll(Select(s, id), now)
    decreases |s|
  {
    if |s| > 0 {
      var front := s[..|s| - 1];
      assert RestampAll(s, now)[..|s| - 1] == RestampAll(front, now);
      SelectRestamp(front, id, now);
      var tail := if s[|s| - 1].entityId == id then [s[|s| - 1]] else [];
      assert RestampAll(Select(front, id) + tail, now) == RestampAll(Select(front, id), now) + RestampAll(tail, now);
    }
  }

  /** The Planet aggregate ignores Mock events, so their clock stamps never
      change a replay. */
  lemma {:induction false} ReplayRestamp(p: Planet, s: seq<Event>, now: Time)
    ensures Replay(p, RestampAll(s, now)) == Replay(p, s)
    decreases |s|
  {
    if |s| > 0 {
      assert RestampAll(s, now)[..|s| - 1] == RestampAll(s[..|s| - 1], now);
      ReplayRestamp(p, s[..|s| - 1], now);
    }
  }

  /** Reading an entity's events returns exactly the entries of its log
      carrying its id, in log order, as the converter reads them back. */
  lemma GetEventsExact(logs: EventLogs, t: EntityType, id: Guid, now: Time)
    ensures GetEvents(logs, t, id, now) == RestampAll(Select(StoredEvents(logs, LogKey(t)), id), now)
    ensures forall x :: x in GetEvents(logs, t, id, now) <==> x in LoadAllEvents(logs, LogKey(t), now) && x.entityId == id
    ensures LogKey(t) !in logs ==> GetEvents(logs, t, id, now) == []
  {
    SelectRestamp(StoredEvents(logs, LogKey(t)), id, now);
    forall x
      ensures x in GetEvents(logs, t, id, now) <==> x in LoadAllEvents(logs, LogKey(t), now) && x.entityId == id
    {
      SelectMembership(LoadAllEvents(logs, LogKey(t), now), id, x);
    }
  }

  /** A save adds the event to the end of its own entity's events and leaves
      every other entity's events as they were, whenever they are read. */
  lemma SaveEventThenGet(s: Stores, t: EntityType, e: Event, now: Time, id: Guid, later: Time)
    ensures GetEvents(SaveEvent(s, t, e, now).logs, t, id, later) ==
      GetEvents(s.logs, t, id, later) + (if e.entityId == id then [Restamp(e, later)] else [])
  {
    var old_ := StoredEvents(s.logs, LogKey(t));
    var new_ := StoredEvents(SaveEvent(s, t, e, now).logs, LogKey(t));
    assert new_ == RestampAll(old_, now) + [e];
    RestampAllAppend(RestampAll(old_, now), e, later);
    RestampTwice(old_, now, later);
    SelectConcat(RestampAll(old_, later), [Restamp(e, later)], id);
  }

  /** Restamping distributes over an appended event. */
  lemma RestampAllAppend(es: seq<Event>, e: Event, now: Time)
    ensures RestampAll(es + [e], now) == RestampAll(es, now) + [Restamp(e, now)]
  {
    assert RestampAll(es + [e], now)[..|es|] == RestampAll(es, now);
  }

  /** A log read back and written again reads like the original: only the
      last clock stamp survives. */
  lemma RestampTwice(s: seq<Event>, a: Time, b: Time)
    ensures RestampAll(RestampAll(s, a), b) == RestampAll(s, b)
  {
  }

  /** Saving k events of one entity and reading it back adds exactly those k
      events, in order. */
  lemma {:induction false} SaveAllThenGet(s: Stores, t: EntityType, es: seq<Event>, now: Time, id: Guid, later: Time)
    requires forall i :: 0 <= i < |es| ==> es[i].entityId == id
    ensures GetEvents(SaveAll(s, t, es, now).logs, t, id, later) == GetEvents(s.logs, t, id, later) + RestampAll(es, later)
    ensures |GetEvents(SaveAll(s, t, es, now).logs, t, id, later)| == |GetEvents(s.logs, t, id, later)| + |es|
    decreases |es|
  {
    if |es| > 0 {
      var front, last := es[..|es| - 1], es[|es| - 1];
      SaveAllThenGet(s, t, front, now, id, later);
      SaveEventThenGet(SaveAll(s, t, front, now), t, last, now, id, later);
      RestampAllSnoc(es, later);
      ConcatAssoc(GetEvents(s.logs, t, id, later), RestampAll(front, later), [Restamp(last, later)]);
    }
  }

  /** Restamping a non-empty sequence restamps its front and then its last event. */
  lemma RestampAllSnoc(es: seq<Event>, now: Time)
    requires |es| > 0
    ensures RestampAll(es, now) == RestampAll(es[..|es| - 1], now) + [Restamp(es[|es| - 1], now)]
  {
    assert RestampAll(es, now)[..|es| - 1] == RestampAll(es[..|es| - 1], now);
  }

  /** Kept apart so that `SaveAllThenGet` does not re-associate among the
      store functions. */
  lemma ConcatAssoc<T>(a: seq<T>, b: seq<T>, c: seq<T>)
    ensures a + b + c == a + (b + c)
  {
  }

  /** After saving a Planet event, the snapshot of its planet is the prior
      snapshot (or the "New Planet" default) with the event applied. */
  lemma SaveEventRefreshesSnapshot(s: Stores, e: Event, now: Time)
    requires Count(LoadPlanets(s.planetFile), e.entityId) <= 1
    ensures GetPlanetById(SaveEvent(s, PlanetType, e, now).planetFile, e.entityId) ==
      Some(Apply(match GetPlanetById(s.planetFile, e.entityId)
                 case Some(p) => p
                 case None => DefaultPlanet(e.entityId, now), e))
  {
    var base := match GetPlanetById(s.planetFile, e.entityId)
      case Some(p) => p
      case None => DefaultPlanet(e.entityId, now);
    assert Apply(base, e).id == e.entityId;
    SaveThenGet(s.planetFile, Apply(base, e));
  }

  /** The snapshot of any other planet is unaffected by a save. */
  lemma SaveEventKeepsOtherSnapshots(s: Stores, t: EntityType, e: Event, now: Time, id: Guid)
    requires id != e.entityId
    ensures GetPlanetById(SaveEvent(s, t, e, now).planetFile, id) == GetPlanetById(s.planetFile, id)
  {
    if t == PlanetType {
      var base := match GetPlanetById(s.planetFile, e.entityId)
        case Some(p) => p
        case None => DefaultPlanet(e.entityId, now);
      SaveKeepsOtherLookups(s.planetFile, Apply(base, e), id);
    }
  }

  /** Saves keep snapshot ids unique. */
  lemma SaveEventPreservesUniqueIds(s: Stores, t: EntityType, e: Event, now: Time)
    requires UniqueIds(LoadPlanets(s.planetFile))
    ensures UniqueIds(LoadPlanets(SaveEvent(s, t, e, now).planetFile))
  {
    if t == PlanetType {
      var base := match GetPlanetById(s.planetFile, e.entityId)
        case Some(p) => p
        case None => DefaultPlanet(e.entityId, now);
      SavePreservesUniqueIds(s.planetFile, Apply(base, e));
    }
  }

  /** The store invariant the refresh keeps: the snapshot of `id` is some base
      planet with the entity's logged events replayed on it in log order. */
  predicate SnapshotTracksLog(s: Stores, id: Guid, base: Planet) {
    UniqueIds(LoadPlanets(s.planetFile)) &&
    GetPlanetById(s.planetFile, id) == Some(Replay(base, Select(StoredEvents(s.logs, LogKey(PlanetType)), id)))
  }

  /** The invariant in terms of what a reader sees, at any time. */
  lemma SnapshotIsReplayOfEvents(s: Stores, id: Guid, base: Planet, now: Time)
    requires SnapshotTracksLog(s, id, base)
    ensures GetPlanetById(s.planetFile, id) == Some(Replay(base, GetEvents(s.logs, PlanetType, id, now)))
  {
    GetEventsExact(s.logs, PlanetType, id, now);
    ReplayRestamp(base, Select(StoredEvents(s.logs, LogKey(PlanetType)), id), now);
  }

  /** The first Planet event of an entity with no snapshot and no logged
      events starts the invariant from the "New Planet" default. */
  lemma FirstSaveStartsTracking(s: Stores, e: Event, now: Time)
    requires UniqueIds(LoadPlanets(s.planetFile))
    requires GetPlanetById(s.planetFile, e.entityId).None?
    requires Select(StoredEvents(s.logs, LogKey(PlanetType)), e.entityId) == []
    ensures SnapshotTracksLog(SaveEvent(s, PlanetType, e, now), e.entityId, DefaultPlanet(e.entityId, now))
  {
    var r := SaveEvent(s, PlanetType, e, now);
    var key := LogKey(PlanetType);
    UniqueCountAtMostOne(LoadPlanets(s.planetFile), e.entityId);
    SaveEventRefreshesSnapshot(s, e, now);
    SaveEventPreservesUniqueIds(s, PlanetType, e, now);
    SelectRestamp(StoredEvents(s.logs, key), e.entityId, now);
    SelectConcat(LoadAllEvents(s.logs, key, now), [e], e.entityId);
    assert Select(StoredEvents(r.logs, key), e.entityId) == [e];
    assert [e][..0] == [];
  }

  /** Every later Planet event of that entity keeps the invariant. */
  lemma SaveEventKeepsTracking(s: Stores, e: Event, now: Time, base: Planet)
    requires SnapshotTracksLog(s, e.entityId, base)
    ensures SnapshotTracksLog(SaveEvent(s, PlanetType, e, now), e.entityId, base)
  {
    var r := SaveEvent(s, PlanetType, e, now);
    var key := LogKey(PlanetType);
    var l := Select(StoredEvents(s.logs, key), e.entityId);
    var l2 := RestampAll(l, now);
    assert Select(StoredEvents(r.logs, key), e.entityId) == l2 + [e] by {
      SelectRestamp(StoredEvents(s.logs, key), e.entityId, now);
      SelectConcat(LoadAllEvents(s.logs, key, now), [e], e.entityId);
    }
    assert Replay(base, l2 + [e]) == Apply(Replay(base, l), e) by {
      assert (l2 + [e])[..|l2|] == l2;
      ReplayRestamp(base, l, now);
    }
    assert GetPlanetById(r.planetFile, e.entityId) == Some(Apply(Replay(base, l), e)) by {
      UniqueCountAtMostOne(LoadPlanets(s.planetFile), e.entityId);
      SaveEventRefreshesSnapshot(s, e, now);
    }
    SaveEventPreservesUniqueIds(s, PlanetType, e, now);
  }

  /** Events of other entities, and events of other types, leave it alone. */
  lemma SaveOtherKeepsTracking(s: Stores, t: EntityType, e: Event, now: Time, id: Guid, base: Planet)
    requires SnapshotTracksLog(s, id, base)
    requires e.entityId != id || LogKey(t) != LogKey(PlanetType)
    ensures SnapshotTracksLog(SaveEvent(s, t, e, now), id, base)
  {
    var r := SaveEvent(s, t, e, now);
    var key := LogKey(PlanetType);
    SaveEventPreservesUniqueIds(s, t, e, now);
    if LogKey(t) == key {
      var l := Select(StoredEvents(s.logs, key), id);
      assert e.entityId != id;
      SelectRestamp(StoredEvents(s.logs, key), id, now);
      SelectConcat(LoadAllEvents(s.logs, key, now), [e], id);
      assert Select(StoredEvents(r.logs, key), id) == RestampAll(l, now);
      ReplayRestamp(base, l, now);
      SaveEventKeepsOtherSnapshots(s, t, e, now, id);
      assert GetPlanetById(r.planetFile, id) == GetPlanetById(s.planetFile, id);
    } else {
      assert StoredEvents(r.logs, key) == StoredEvents(s.logs, key);
      if t == PlanetType {
        assert false;
      }
    }
  }
}

=== FILE: events.dfy ===
/** The domain events of the Planet aggregate (the records under `Events/`). */
module Events {

  /** A `System.Guid`; `EmptyGuid` is `Guid.Empty`, the default of an unset id. */
  type Guid = nat
  const EmptyGuid: Guid := 0

  /** A `DateTime`, as a tick count. */
  type Time = int

  /** The concrete event classes that the serialization table knows. */
  datatype Kind = MockKind | ColonizedKind | RenamedKind | CreatedKind {

    /** The C# class name, `nameof(...)`, which is also the `EventType` tag. */
    function Name(): string {
      match this
      case MockKind => "MockDomainEvent"
      case ColonizedKind => "PlanetColonizedDomainEvent"
      case RenamedKind => "PlanetRenamedDomainEvent"
      case CreatedKind => "PlanetCreatedDomainEvent"
    }
  }

  /** The variant-specific part of an event. `Mock` carries nothing and is a
      variant the Planet aggregate does not recognise. */
  datatype Payload =
    | PlanetCreated(planetName: string)
    | PlanetColonized(playerId: Guid)
    | PlanetRenamed(planetName: string)
    | Mock
  {
    function Kind(): Kind {
      match this
      case PlanetCreated(_) => CreatedKind
      case PlanetColonized(_) => ColonizedKind
      case PlanetRenamed(_) => RenamedKind
      case Mock => MockKind
    }

    /** The `EventType` discriminator of an event with this payload. */
    function EventType(): string {
      Kind().Name()
    }
  }

  /** An immutable domain event. The per-read `Id` of the source is not part of
      the model. */
  datatype Event = Event(entityId: Guid, occurredOn: Time, payload: Payload)
}

=== FILE: history.dfy ===
/** What a replay of events computes, stated without folding: the name comes
    from the last naming event and the colonization from the last Colonized
    event; every other field is kept. */
module History {
  import opened Wrappers
  import opened Events
  import opened Planets
  import opened Ordering

  /** Events that set the planet's name (Created and Renamed). */
  predicate Names(e: Event) {
    e.payload.PlanetCreated? || e.payload.PlanetRenamed?
  }

  predicate Colonizes(e: Event) {
    e.payload.PlanetColonized?
  }

  /** The name set by the last naming event of `s`, if any. */
  function LastName(s: seq<Event>): (r: Option<string>)
    decreases |s|
  {
    if |s| == 0 then None
    else if Names(s[|s| - 1]) then Some(s[|s| - 1].payload.planetName)
    else LastName(s[..|s| - 1])
  }

  /** The last Colonized event of `s`, if any. */
  function LastColonization(s: seq<Event>): (r: Option<Event>)
    ensures r.Some? ==> Colonizes(r.value) && r.value in s
    decreases |s|
  {
    if |s| == 0 then None
    else if Colonizes(s[|s| - 1]) then Some(s[|s| - 1])
    else LastColonization(s[..|s| - 1])
  }

  /** The reference definition of a replay's outcome. */
  function Outcome(p: Planet, s: seq<Event>): Planet {
    var p1 := if LastName(s).Some? then p.(name := LastName(s).value) else p;
    match LastColonization(s)
    case None => p1
    case Some(c) =>
      p1.(isColonized := true, colonizedBy := Some(c.payload.playerId), colonizedAt := Some(c.occurredOn))
  }

  /** Folding `Apply` computes the reference outcome. */
  lemma {:induction false} ReplayIsOutcome(p: Planet, s: seq<Event>)
    ensures Replay(p, s) == Outcome(p, s)
    decreases |s|
  {
    if |s| > 0 {
      ReplayIsOutcome(p, s[..|s| - 1]);
    }
  }

  lemma {:induction false} LastNameFound(s: seq<Event>)
    ensures LastName(s).Some? <==> exists i :: 0 <= i < |s| && Names(s[i])
    decreases |s|
  {
    if |s| > 0 {
      LastNameFound(s[..|s| - 1]);
      assert forall i :: 0 <= i < |s| - 1 ==> s[..|s| - 1][i] == s[i];
    }
  }

  lemma {:induction false} LastColonizationFound(s: seq<Event>)
    ensures LastColonization(s).Some? <==> exists i :: 0 <= i < |s| && Colonizes(s[i])
    decreases |s|
  {
    if |s| > 0 {
      LastColonizationFound(s[..|s| - 1]);
      assert forall i :: 0 <= i < |s| - 1 ==> s[..|s| - 1][i] == s[i];
    }
  }

  /** Replaying `b` over a state that already reflects `a` gives the same
      result as replaying `b` alone, as long as `b` renames whenever `a` does
      and colonizes whenever `a` does: Apply only overwrites. */
  lemma ReplayAbsorbs(q: Planet, a: seq<Event>, b: seq<Event>)
    requires LastName(a).Some? ==> LastName(b).Some?
    requires LastColonization(a).Some? ==> LastColonization(b).Some?
    ensures Replay(Replay(q, a), b) == Replay(q, b)
  {
    ReplayIsOutcome(q, a);
    ReplayIsOutcome(Replay(q, a), b);
    ReplayIsOutcome(q, b);
  }

  /** In particular a permutation of the same events absorbs an earlier
      replay of them, whatever order either was in. */
  lemma ReplayPermutationAbsorbs(q: Planet, a: seq<Event>, b: seq<Event>)
    requires multiset(a) == multiset(b)
    ensures Replay(Replay(q, a), b) == Replay(q, b)
  {
    LastNameFound(a);
    LastNameFound(b);
    LastColonizationFound(a);
    LastColonizationFound(b);
    if LastName(a).Some? {
      var i :| 0 <= i < |a| && Names(a[i]);
      assert a[i] in multiset(b);
    }
    if LastColonization(a).Some? {
      var i :| 0 <= i < |a| && Colonizes(a[i]);
      assert a[i] in multiset(b);
    }
    ReplayAbsorbs(q, a, b);
  }

  /** In a time-ordered log, the last Colonized event is one with the latest
      time among the Colonized events. */
  lemma {:induction false} LastColonizationIsLatest(s: seq<Event>)
    requires Sorted(s)
    requires LastColonization(s).Some?
    ensures forall i :: 0 <= i < |s| && Colonizes(s[i]) ==>
      s[i].occurredOn <= LastColonization(s).value.occurredOn
    decreases |s|
  {
    var n := |s| - 1;
    if Colonizes(s[n]) {
    } else {
      var front := s[..n];
      assert forall i :: 0 <= i < n ==> front[i] == s[i];
      LastColonizationIsLatest(front);
    }
  }
}

=== FILE: int32.dfy ===
/** C# `int`: 32-bit two's complement, unchecked (wrapping) arithmetic, and
    division truncating toward zero. */
module Int32 {
  const Modulus: int := 0x1_0000_0000
  const Min: int := -0x8000_0000
  const Max: int := 0x7FFF_FFFF

  type Int32 = x: int | Min <= x <= Max

  /** The value an unchecked C# `int` operation stores for the exact result `x`. */
  function Wrap(x: int): (r: Int32)
    ensures (x - r) % Modulus == 0
    ensures Min <= x <= Max ==> r == x
  {
    (x - Min) % Modulus + Min
  }

  /** Two 32-bit values congruent modulo 2^32 are equal. */
  lemma CongruentInt32Equal(a: Int32, b: Int32)
    requires (a - b) % Modulus == 0
    ensures a == b
  {
    var k := (a - b) / Modulus;
    assert a - b == k * Modulus;
    assert -Modulus < k * Modulus < Modulus;
  }

  /** Wrapping after every step is the same as wrapping once at the end. */
  lemma WrapAdd(x: int, y: int)
    ensures Wrap(Wrap(x) + y) == Wrap(x + y)
  {
    var a, b := Wrap(Wrap(x) + y), Wrap(x + y);
    var m := (x - Wrap(x)) / Modulus;
    assert x - Wrap(x) == m * Modulus;
    var n := (Wrap(x) + y - a) / Modulus;
    assert Wrap(x) + y - a == n * Modulus;
    var o := (x + y - b) / Modulus;
    assert x + y - b == o * Modulus;
    assert a - b == (o - n - m) * Modulus;
    CongruentInt32Equal(a, b);
  }

  /** Euclidean division of a non-negative number brackets it. */
  lemma DivBounds(n: int, b: int)
    requires n >= 0 && b > 0
    ensures (n / b) * b <= n < (n / b + 1) * b
    ensures n < b <==> n / b == 0
  {
    var q, r := n / b, n % b;
    assert n == q * b + r && 0 <= r < b;
    assert (q + 1) * b == q * b + b;
    if q >= 1 {
      assert q * b >= b;
    }
  }

  /** C#'s `/` on `int`, for a positive divisor: the quotient rounded toward
      zero. */
  function TruncDiv(a: int, b: int): (q: int)
    requires b > 0
    ensures a >= 0 ==> q * b <= a < (q + 1) * b
    ensures a < 0 ==> (q - 1) * b < a <= q * b
    ensures -b < a < b <==> q == 0
  {
    if a >= 0 then
      DivBounds(a, b);
      a / b
    else
      DivBounds(-a, b);
      var m := (-a) / b;
      assert (-m - 1) * b == -(m * b) - b && -m * b == -(m * b);
      -m
  }
}

=== FILE: ordering.dfy ===
/** Ordering events by `OccurredOn`: LINQ's `OrderBy(e => e.OccurredOn)`, a
    stable ascending sort, modelled as an insertion sort. */
module Ordering {
  import opened Events

  predicate Sorted(s: seq<Event>) {
    forall i, j :: 0 <= i < j < |s| ==> s[i].occurredOn <= s[j].occurredOn
  }

  /** No two events share an `OccurredOn`. */
  predicate DistinctTimes(s: seq<Event>) {
    forall i, j :: 0 <= i < j < |s| ==> s[i].occurredOn != s[j].occurredOn
  }

  /** The events of `s` that occurred at time `t`, in their order in `s`. */
  function At(s: seq<Event>, t: Time): seq<Event>
    decreases |s|
  {
    if |s| == 0 then []
    else At(s[..|s| - 1], t) + (if s[|s| - 1].occurredOn == t then [s[|s| - 1]] else [])
  }

  /** Insert `e` after every event of `s` that occurred no later than it. */
  function Insert(s: seq<Event>, e: Event): seq<Event>
    decreases |s|
  {
    if |s| == 0 || s[|s| - 1].occurredOn <= e.occurredOn then s + [e]
    else Insert(s[..|s| - 1], e) + [s[|s| - 1]]
  }

  function SortByTime(s: seq<Event>): seq<Event>
    decreases |s|
  {
    if |s| == 0 then [] else Insert(SortByTime(s[..|s| - 1]), s[|s| - 1])
  }

  lemma {:induction false} AtMembership(s: seq<Event>, t: Time, x: Event)
    ensures x in At(s, t) <==> x in s && x.occurredOn == t
    decreases |s|
  {
    if |s| > 0 {
      AtMembership(s[..|s| - 1], t, x);
      assert s == s[..|s| - 1] + [s[|s| - 1]];
    }
  }

  lemma {:induction false} AtConcat(a: seq<Event>, b: seq<Event>, t: Time)
    ensures At(a + b, t) == At(a, t) + At(b, t)
    decreases |b|
  {
    if |b| == 0 {
      assert a + b == a;
    } else {
      assert (a + b)[..|a + b| - 1] == a + b[..|b| - 1];
      AtConcat(a, b[..|b| - 1], t);
    }
  }

  lemma {:induction false} InsertMultiset(s: seq<Event>, e: Event)
    ensures multiset(Insert(s, e)) == multiset(s) + multiset{e}
    decreases |s|
  {
    if |s| > 0 && s[|s| - 1].occurredOn > e.occurredOn {
      InsertMultiset(s[..|s| - 1], e);
      assert s == s[..|s| - 1] + [s[|s| - 1]];
    }
  }

  lemma {:induction false} InsertSorted(s: seq<Event>, e: Event)
    requires Sorted(s)
    ensures Sorted(Insert(s, e))
    decreases |s|
  {
    if |s| > 0 && s[|s| - 1].occurredOn > e.occurredOn {
      var front, last := s[..|s| - 1], s[|s| - 1];
      InsertSorted(front, e);
      InsertMultiset(front, e);
      var r := Insert(front, e);
      forall x | x in r
        ensures x.occurredOn <= last.occurredOn
      {
        assert x in multiset(r);
        assert x in multiset(front) || x == e;
      }
      forall i, j | 0 <= i < j < |r + [last]|
        ensures (r + [last])[i].occurredOn <= (r + [last])[j].occurredOn
      {
        if j == |r| {
          assert (r + [last])[i] == r[i];
          assert r[i] in r;
        }
      }
    }
  }

  /** Inserting into a sorted sequence puts `e` after all events with its time. */
  lemma {:induction false} InsertAt(s: seq<Event>, e: Event, t: Time)
    requires Sorted(s)
    ensures At(Insert(s, e), t) == At(s, t) + (if e.occurredOn == t then [e] else [])
    decreases |s|
  {
    if |s| == 0 || s[|s| - 1].occurredOn <= e.occurredOn {
      AtConcat(s, [e], t);
    } else {
      var front, last := s[..|s| - 1], s[|s| - 1];
      InsertAt(front, e, t);
      AtConcat(Insert(front, e), [last], t);
    }
  }

  /** The sort is a sorted permutation. */
  lemma {:induction false} SortByTimeSortedPermutation(s: seq<Event>)
    ensures Sorted(SortByTime(s))
    ensures multiset(SortByTime(s)) == multiset(s)
    decreases |s|
  {
    if |s| > 0 {
      SortByTimeSortedPermutation(s[..|s| - 1]);
      InsertSorted(SortByTime(s[..|s| - 1]), s[|s| - 1]);
      InsertMultiset(SortByTime(s[..|s| - 1]), s[|s| - 1]);
      assert s == s[..|s| - 1] + [s[|s| - 1]];
    }
  }

  /** The sort is stable: events with equal times keep their relative order. */
  lemma {:induction false} SortByTimeStable(s: seq<Event>, t: Time)
    ensures At(SortByTime(s), t) == At(s, t)
    decreases |s|
  {
    if |s| > 0 {
      SortByTimeStable(s[..|s| - 1], t);
      SortByTimeSortedPermutation(s[..|s| - 1]);
      InsertAt(SortByTime(s[..|s| - 1]), s[|s| - 1], t);
    }
  }

  lemma AtDropLast(s: seq<Event>, t: Time)
    requires |s| > 0
    ensures s[|s| - 1].occurredOn == t ==> |At(s, t)| > 0
    ensures At(s[..|s| - 1], t) ==
      if s[|s| - 1].occurredOn == t then At(s, t)[..|At(s, t)| - 1] else At(s, t)
  {
  }

  /** In a sorted sequence no event is later than the last one. */
  lemma NotAfterLast(s: seq<Event>, x: Event)
    requires Sorted(s) && x in s
    ensures x.occurredOn <= s[|s| - 1].occurredOn
  {
    var i :| 0 <= i < |s| && s[i] == x;
    if i < |s| - 1 {
      assert s[i].occurredOn <= s[|s| - 1].occurredOn;
    }
  }

  /** The events at the time of the last event end with that event. */
  lemma AtEndsWithLast(s: seq<Event>)
    requires |s| > 0
    ensures var l := At(s, s[|s| - 1].occurredOn); |l| > 0 && l[|l| - 1] == s[|s| - 1]
  {
  }

  /** Two sorted sequences with the same events at every time end in the same event. */
  lemma SameLastEvent(a: seq<Event>, b: seq<Event>)
    requires Sorted(a) && Sorted(b) && |a| > 0
    requires forall t :: At(a, t) == At(b, t)
    ensures |b| > 0 && a[|a| - 1] == b[|b| - 1]
  {
    var x := a[|a| - 1];
    var k := x.occurredOn;
    assert x in b by {
      AtMembership(a, k, x);
      assert At(a, k) == At(b, k);
      AtMembership(b, k, x);
    }
    var y := b[|b| - 1];
    assert y in a by {
      AtMembership(b, y.occurredOn, y);
      assert At(a, y.occurredOn) == At(b, y.occurredOn);
      AtMembership(a, y.occurredOn, y);
    }
    assert k == y.occurredOn by {
      NotAfterLast(b, x);
      NotAfterLast(a, y);
    }
    AtEndsWithLast(a);
    AtEndsWithLast(b);
    assert At(a, k) == At(b, k);
  }

  /** A sorted sequence is determined by its per-time sub-sequences. */
  lemma {:induction false} SortedDeterminedByTimes(a: seq<Event>, b: seq<Event>)
    requires Sorted(a) && Sorted(b)
    requires forall t :: At(a, t) == At(b, t)
    ensures a == b
    decreases |a| + |b|
  {
    if |a| == 0 {
      if |b| > 0 {
        AtMembership(b, b[0].occurredOn, b[0]);
        assert false;
      }
    } else {
      SameLastEvent(a, b);
      var a', b' := a[..|a| - 1], b[..|b| - 1];
      forall t
        ensures At(a', t) == At(b', t)
      {
        AtDropLast(a, t);
        AtDropLast(b, t);
      }
      SortedDeterminedByTimes(a', b');
      assert a == a' + [a[|a| - 1]];
      assert b == b' + [b[|b| - 1]];
    }
  }

  lemma SortByTimeAtBoth(a: seq<Event>, b: seq<Event>)
    ensures forall t :: At(SortByTime(a), t) == At(a, t) && At(SortByTime(b), t) == At(b, t)
  {
    forall t
      ensures At(SortByTime(a), t) == At(a, t) && At(SortByTime(b), t) == At(b, t)
    {
      SortByTimeStable(a, t);
      SortByTimeStable(b, t);
    }
  }

  lemma SortedAgreeOnTimes(a: seq<Event>, b: seq<Event>)
    requires forall t :: At(a, t) == At(b, t)
    ensures SortByTime(a) == SortByTime(b)
  {
    SortByTimeAtBoth(a, b);
    SortByTimeSortedPermutation(a);
    SortByTimeSortedPermutation(b);
    SortedDeterminedByTimes(SortByTime(a), SortByTime(b));
  }

  lemma SortedAgreementIsPerTime(a: seq<Event>, b: seq<Event>)
    requires SortByTime(a) == SortByTime(b)
    ensures forall t :: At(a, t) == At(b, t)
  {
    SortByTimeAtBoth(a, b);
  }

  /** Sorting two logs gives the same sequence exactly when, time by time,
      they list the same events in the same order. */
  lemma SortByTimeCanonical(a: seq<Event>, b: seq<Event>)
    ensures (forall t :: At(a, t) == At(b, t)) ==> SortByTime(a) == SortByTime(b)
    ensures SortByTime(a) == SortByTime(b) ==> forall t :: At(a, t) == At(b, t)
  {
    if forall t :: At(a, t) == At(b, t) {
      SortedAgreeOnTimes(a, b);
    }
    if SortByTime(a) == SortByTime(b) {
      SortedAgreementIsPerTime(a, b);
    }
  }

  /** A log that is already in time order is left as it is. */
  lemma SortByTimeOfSorted(s: seq<Event>)
    requires Sorted(s)
    ensures SortByTime(s) == s
  {
    SortByTimeSortedPermutation(s);
    forall t
      ensures At(SortByTime(s), t) == At(s, t)
    {
      SortByTimeStable(s, t);
    }
    SortedDeterminedByTimes(SortByTime(s), s);
  }

  lemma {:induction false} AtMultiset(s: seq<Event>, t: Time, x: Event)
    ensures multiset(At(s, t))[x] == if x.occurredOn == t then multiset(s)[x] else 0
    decreases |s|
  {
    if |s| > 0 {
      AtMultiset(s[..|s| - 1], t, x);
      assert s == s[..|s| - 1] + [s[|s| - 1]];
    }
  }

  lemma {:induction false} AtOfAbsentTime(s: seq<Event>, t: Time)
    requires forall i :: 0 <= i < |s| ==> s[i].occurredOn != t
    ensures At(s, t) == []
    decreases |s|
  {
    if |s| > 0 {
      AtOfAbsentTime(s[..|s| - 1], t);
    }
  }

  lemma {:induction false} AtOfDistinctIsShort(s: seq<Event>, t: Time)
    requires DistinctTimes(s)
    ensures |At(s, t)| <= 1
    decreases |s|
  {
    if |s| > 0 {
      var front := s[..|s| - 1];
      AtOfDistinctIsShort(front, t);
      if s[|s| - 1].occurredOn == t {
        forall i | 0 <= i < |front|
          ensures front[i].occurredOn != t
        {
          assert front[i] == s[i];
        }
        AtOfAbsentTime(front, t);
      }
    }
  }

  /** Two sequences with the same elements have, time by time, the same
      elements. */
  lemma AtPermutation(a: seq<Event>, b: seq<Event>, t: Time)
    requires multiset(a) == multiset(b)
    ensures multiset(At(a, t)) == multiset(At(b, t))
  {
    forall x
      ensures multiset(At(a, t))[x] == multiset(At(b, t))[x]
    {
      AtMultiset(a, t, x);
      AtMultiset(b, t, x);
    }
  }

  lemma ShortPermutationsEqual(a: seq<Event>, b: seq<Event>)
    requires |a| <= 1 && |b| <= 1
    requires multiset(a) == multiset(b)
    ensures a == b
  {
    assert |a| == |multiset(a)| == |multiset(b)| == |b|;
    if |a| == 1 {
      assert a[0] in multiset(b);
    }
  }

  /** When no two events share a time, the sorted result does not depend on
      the order the log was read in. */
  lemma DistinctTimesOrderIndependent(a: seq<Event>, b: seq<Event>)
    requires multiset(a) == multiset(b)
    requires DistinctTimes(a) && DistinctTimes(b)
    ensures SortByTime(a) == SortByTime(b)
  {
    forall t
      ensures At(a, t) == At(b, t)
    {
      AtPermutation(a, b, t);
      AtOfDistinctIsShort(a, t);
      AtOfDistinctIsShort(b, t);
      ShortPermutationsEqual(At(a, t), At(b, t));
    }
    SortByTimeCanonical(a, b);
  }
}

=== FILE: planet.dfy ===
/** The Planet aggregate: its projected state, the pure state transition
    `Apply`, and the command methods that produce exactly one event each
    (Domain/Models/Planet.cs). */
module Planets {
  import opened Wrappers
  import opened Events
  import opened Errors

  /** A Planet projection together with the buffer of events its commands
      raised (`DomainEvents`), which callers read to persist them. */
  datatype Planet = Planet(
    id: Guid,
    name: string,
    isColonized: bool,
    colonizedBy: Option<Guid>,
    colonizedAt: Option<Time>,
    domainEvents: seq<Event>)

  /** The colonization-pair invariant: colonized exactly when both the
      colonizer and the colonization time are recorded. */
  predicate PairConsistent(isColonized: bool, colonizedBy: Option<Guid>, colonizedAt: Option<Time>) {
    if isColonized then colonizedBy.Some? && colonizedAt.Some?
    else colonizedBy.None? && colonizedAt.None?
  }

  predicate Consistent(p: Planet) {
    PairConsistent(p.isColonized, p.colonizedBy, p.colonizedAt)
  }

  /** True when `playerId` is the recorded colonizer of `p`. */
  predicate IsColonizer(p: Planet, playerId: Guid) {
    p.isColonized && p.colonizedBy == Some(playerId)
  }

  /** The state transition: each recognised variant overwrites some fields;
      any other variant is ignored. The event's entity id is not checked. */
  function Apply(p: Planet, e: Event): (r: Planet)
    ensures r.id == p.id && r.domainEvents == p.domainEvents
    ensures e.payload.Mock? ==> r == p
  {
    match e.payload
    case PlanetCreated(n) => p.(name := n)
    case PlanetColonized(player) =>
      p.(isColonized := true, colonizedBy := Some(player), colonizedAt := Some(e.occurredOn))
    case PlanetRenamed(n) => p.(name := n)
    case Mock => p
  }

  /** `AddDomainEvent`: buffer a raised event. */
  function Raise(p: Planet, e: Event): Planet {
    p.(domainEvents := p.domainEvents + [e])
  }

  /** The test-pinned factory: checks the colonization pair, then raises and
      applies one Created event stamped with `now`. */
  function Create(id: Guid, name: string, isColonized: bool, colonizedBy: Option<Guid>,
                  colonizedAt: Option<Time>, now: Time): (r: Result<Planet, Error>)
    ensures r.Success? <==> PairConsistent(isColonized, colonizedBy, colonizedAt)
    ensures r.Failure? && !isColonized ==> r.error == UncolonizedWithColonizer
    ensures r.Failure? && isColonized ==> r.error == ColonizedWithoutColonizer
    ensures r.Success? ==>
      && Consistent(r.value)
      && r.value == Planet(id, name, isColonized, colonizedBy, colonizedAt,
                           [Event(id, now, PlanetCreated(name))])
  {
    if !isColonized && (colonizedBy.Some? || colonizedAt.Some?) then
      Failure(UncolonizedWithColonizer)
    else if isColonized && (colonizedBy.None? || colonizedAt.None?) then
      Failure(ColonizedWithoutColonizer)
    else
      var p := Planet(id, name, isColonized, colonizedBy, colonizedAt, []);
      var e := Event(id, now, PlanetCreated(name));
      Success(Raise(Apply(p, e), e))
  }

  /** `Colonize(playerId)` at time `now`. */
  function Colonize(p: Planet, playerId: Guid, now: Time): (r: Result<Planet, Error>)
    ensures p.isColonized <==> r.Failure?
    ensures r.Failure? ==> r.error == AlreadyColonized
    ensures r.Success? ==>
      var e := Event(p.id, now, PlanetColonized(playerId));
      && r.value.domainEvents == p.domainEvents + [e]
      && r.value.isColonized
      && r.value.colonizedBy == Some(playerId)
      && r.value.colonizedAt == Some(e.occurredOn)
      && r.value.id == p.id && r.value.name == p.name
  {
    if p.isColonized then
      Failure(AlreadyColonized)
    else
      var e := Event(p.id, now, PlanetColonized(playerId));
      Success(Raise(Apply(p, e), e))
  }

  /** The test-pinned `Rename(newName, playerId)` at time `now`; `None` is a
      null name. Only the recorded colonizer may rename, and that check comes
      before the name check. */
  function Rename(p: Planet, newName: Option<string>, playerId: Guid, now: Time): (r: Result<Planet, Error>)
    ensures r.Success? <==> IsColonizer(p, playerId) && newName.Some? && newName.value != ""
    ensures !IsColonizer(p, playerId) ==> r == Failure(NotColonizer)
    ensures IsColonizer(p, playerId) && (newName.None? || newName.value == "") ==> r == Failure(InvalidName)
    ensures r.Success? ==>
      var e := Event(p.id, now, PlanetRenamed(newName.value));
      r.value == p.(name := newName.value, domainEvents := p.domainEvents + [e])
  {
    if !IsColonizer(p, playerId) then
      Failure(NotColonizer)
    else if newName.None? || newName.value == "" then
      Failure(InvalidName)
    else
      var e := Event(p.id, now, PlanetRenamed(newName.value));
      Success(Raise(Apply(p, e), e))
  }

  /** Applying events one after the other, in sequence order. */
  function Replay(p: Planet, events: seq<Event>): Planet
    decreases |events|
  {
    if |events| == 0 then p
    else Apply(Replay(p, events[..|events| - 1]), events[|events| - 1])
  }

  /** Each branch of `Apply` only overwrites fields, so a repeat is a no-op. */
  lemma ApplyIdempotent(p: Planet, e: Event)
    ensures Apply(Apply(p, e), e) == Apply(p, e)
  {
  }

  lemma ApplyPreservesConsistency(p: Planet, e: Event)
    requires Consistent(p)
    ensures Consistent(Apply(p, e))
  {
  }

  /** Replaying a concatenation replays the two parts one after the other. */
  lemma {:induction false} ReplayConcat(p: Planet, a: seq<Event>, b: seq<Event>)
    ensures Replay(p, a + b) == Replay(Replay(p, a), b)
    decreases |b|
  {
    if |b| == 0 {
      assert a + b == a;
    } else {
      assert (a + b)[..|a + b| - 1] == a + b[..|b| - 1];
      ReplayConcat(p, a, b[..|b| - 1]);
    }
  }

  /** Replay never changes the identity or the buffered events, and keeps the
      colonization-pair invariant. */
  lemma {:induction false} ReplayInvariants(p: Planet, events: seq<Event>)
    ensures Replay(p, events).id == p.id
    ensures Replay(p, events).domainEvents == p.domainEvents
    ensures Consistent(p) ==> Consistent(Replay(p, events))
    decreases |events|
  {
    if |events| > 0 {
      ReplayInvariants(p, events[..|events| - 1]);
      if Consistent(p) {
        ApplyPreservesConsistency(Replay(p, events[..|events| - 1]), events[|events| - 1]);
      }
    }
  }
}

=== FILE: planet_repository.dfy ===
/** The older read path: a planet rebuilt from the static planet list with
    its events applied in log order (Infrastructure/PlanetRepository.cs). */
module PlanetRepository {
  import opened Wrappers
  import opened Events
  import opened Errors
  import opened Planets
  import opened PlanetStore
  import opened EventStore
  import opened Ordering
  import opened History
  import opened StateRetriever

  /** The static planet list; `None` is a file that does not exist. */
  type PlanetList = Option<seq<Planet>>

  /** `new Planet(...)` from the listed fields: the copy starts with no
      pending domain events. */
  function Copy(p: Planet): (r: Planet)
    ensures r.domainEvents == []
    ensures r.id == p.id && r.name == p.name && r.isColonized == p.isColonized
    ensures r.colonizedBy == p.colonizedBy && r.colonizedAt == p.colonizedAt
  {
    Planet(p.id, p.name, p.isColonized, p.colonizedBy, p.colonizedAt, [])
  }

  /** `GetByIdAsync`: the first listed planet with the id, copied, with the
      planet's events applied in the order they were logged. */
  function GetById(list: PlanetList, logs: EventLogs, id: Guid, now: Time): (r: Result<Planet, Error>)
    ensures list.None? ==> r == Failure(MissingPlanetFile)
    ensures list.Some? ==> (r.Failure? <==> forall i :: 0 <= i < |list.value| ==> list.value[i].id != id)
    ensures list.Some? && r.Failure? ==> r.error == RepositoryPlanetNotFound
    ensures r.Success? ==>
      r.value.id == id && r.value.domainEvents == [] &&
      r.value == Outcome(Copy(FindById(list.value, id).value), GetEvents(logs, PlanetType, id, now))
  {
    match list
    case None => Failure(MissingPlanetFile)
    case Some(planets) =>
      match FindById(planets, id)
      case None => Failure(RepositoryPlanetNotFound)
      case Some(p) =>
        var events := GetEvents(logs, PlanetType, id, now);
        ReplayIsOutcome(Copy(p), events);
        ReplayInvariants(Copy(p), events);
        Success(Replay(Copy(p), events))
  }

  /** A replay never reads the pending-event buffer. */
  lemma ReplayIgnoresBuffer(p: Planet, events: seq<Event>)
    ensures Replay(Copy(p), events) == Copy(Replay(p, events))
  {
    ReplayIsOutcome(Copy(p), events);
    ReplayIsOutcome(p, events);
    ReplayInvariants(p, events);
  }

  /** The static list and the snapshot store are separate files. When the
      list holds the planet as the state its snapshot is replayed from, and
      the planet's events were logged in time order, both read paths agree up
      to the pending-event buffer. */
  lemma AgreesWithRetrieverOnSortedLog(list: seq<Planet>, s: Stores, id: Guid, base: Planet, now: Time)
    requires FindById(list, id) == Some(base)
    requires SnapshotTracksLog(s, id, base)
    requires Sorted(GetEvents(s.logs, PlanetType, id, now))
    ensures GetById(Some(list), s.logs, id, now).Success? && GetCurrentState(s, id, now).Success?
    ensures GetById(Some(list), s.logs, id, now).value == Copy(GetCurrentState(s, id, now).value)
  {
    var events := GetEvents(s.logs, PlanetType, id, now);
    SortedLogGivesSnapshot(s, id, base, now);
    SnapshotIsReplayOfEvents(s, id, base, now);
    ReplayIgnoresBuffer(base, events);
    ReplayIsOutcome(Copy(base), events);
  }

  /** With no events the result is the listed planet, field for field. */
  lemma NoEventsGivesListedPlanet(list: PlanetList, logs: EventLogs, id: Guid, now: Time)
    requires list.Some? && FindById(list.value, id).Some?
    requires GetEvents(logs, PlanetType, id, now) == []
    ensures GetById(list, logs, id, now) == Success(Copy(FindById(list.value, id).value))
  {
  }
}

=== FILE: planet_store.dfy ===
/** The snapshot store: a list of Planet snapshots with upsert by id
    (Infrastructure/PlanetStore/FilePlanetStore.cs). */
module PlanetStore {
  import opened Wrappers
  import opened Events
  import opened Planets

  /** The contents of `planets.json`; `None` when the file does not exist. */
  type PlanetFile = Option<seq<Planet>>

  /** `LoadPlanetsAsync`: a missing file reads as the empty list. */
  function LoadPlanets(file: PlanetFile): seq<Planet> {
    match file
    case None => []
    case Some(ps) => ps
  }

  /** The position of the first snapshot with the id, or `|ps|` if none. */
  function FirstIndex(ps: seq<Planet>, id: Guid): (i: nat)
    ensures i <= |ps|
    ensures forall j :: 0 <= j < i ==> ps[j].id != id
    ensures i < |ps| ==> ps[i].id == id
    decreases |ps|
  {
    if |ps| == 0 then 0
    else if ps[0].id == id then 0
    else 1 + FirstIndex(ps[1..], id)
  }

  /** `FirstOrDefault(p => p.Id == id)`. */
  function FindById(ps: seq<Planet>, id: Guid): (r: Option<Planet>)
    ensures r.None? <==> forall i :: 0 <= i < |ps| ==> ps[i].id != id
    ensures r.Some? ==> exists i :: 0 <= i < |ps| && ps[i] == r.value
    ensures r.Some? ==> r.value.id == id
    ensures r.Some? ==> FirstIndex(ps, id) < |ps| && r.value == ps[FirstIndex(ps, id)]
  {
    var i := FirstIndex(ps, id);
    if i < |ps| then Some(ps[i]) else None
  }

  /** `List.Remove(existing)` of the first snapshot with the id. */
  function RemoveFirst(ps: seq<Planet>, id: Guid): seq<Planet> {
    var i := FirstIndex(ps, id);
    if i < |ps| then ps[..i] + ps[i + 1..] else ps
  }

  /** `SavePlanetAsync`: drop the first snapshot with the same id, append. */
  function SavePlanet(file: PlanetFile, p: Planet): (r: PlanetFile)
    ensures r.Some? && |r.value| > 0 && r.value[|r.value| - 1] == p
  {
    Some(RemoveFirst(LoadPlanets(file), p.id) + [p])
  }

  /** `GetPlanetsAsync`: the stored list, in order. */
  function GetPlanets(file: PlanetFile): (r: seq<Planet>)
    ensures file.None? ==> r == []
    ensures file.Some? ==> r == file.value
  {
    LoadPlanets(file)
  }

  /** Two planets with distinct ids saved into a missing file are listed in
      the order they were saved. */
  lemma SaveTwoThenList(p1: Planet, p2: Planet)
    requires p1.id != p2.id
    ensures GetPlanets(SavePlanet(SavePlanet(None, p1), p2)) == [p1, p2]
  {
  }

  /** `GetPlanetByIdAsync`: the first snapshot with the id, or none. */
  function GetPlanetById(file: PlanetFile, id: Guid): (r: Option<Planet>)
    ensures r.None? <==> forall i :: 0 <= i < |LoadPlanets(file)| ==> LoadPlanets(file)[i].id != id
    ensures r.Some? ==> r.value.id == id && r.value in LoadPlanets(file)
    ensures r.Some? ==>
      FirstIndex(LoadPlanets(file), id) < |LoadPlanets(file)| &&
      r.value == LoadPlanets(file)[FirstIndex(LoadPlanets(file), id)]
  {
    FindById(LoadPlanets(file), id)
  }

  /** The number of snapshots carrying the id. */
  function Count(ps: seq<Planet>, id: Guid): nat
    decreases |ps|
  {
    if |ps| == 0 then 0 else (if ps[0].id == id then 1 else 0) + Count(ps[1..], id)
  }

  /** The snapshots with ids other than `id`, in order. */
  function Others(ps: seq<Planet>, id: Guid): seq<Planet>
    decreases |ps|
  {
    if |ps| == 0 then [] else (if ps[0].id == id then [] else [ps[0]]) + Others(ps[1..], id)
  }

  predicate UniqueIds(ps: seq<Planet>) {
    forall i, j :: 0 <= i < j < |ps| ==> ps[i].id != ps[j].id
  }

  lemma {:induction false} CountZero(ps: seq<Planet>, id: Guid)
    ensures Count(ps, id) == 0 <==> forall i :: 0 <= i < |ps| ==> ps[i].id != id
    decreases |ps|
  {
    if |ps| > 0 {
      CountZero(ps[1..], id);
      assert forall i :: 1 <= i < |ps| ==> ps[1..][i - 1] == ps[i];
    }
  }

  lemma {:induction false} CountConcat(a: seq<Planet>, b: seq<Planet>, id: Guid)
    ensures Count(a + b, id) == Count(a, id) + Count(b, id)
    decreases |a|
  {
    if |a| == 0 {
      assert a + b == b;
    } else {
      assert (a + b)[1..] == a[1..] + b;
      CountConcat(a[1..], b, id);
    }
  }

  lemma {:induction false} OthersConcat(a: seq<Planet>, b: seq<Planet>, id: Guid)
    ensures Others(a + b, id) == Others(a, id) + Others(b, id)
    decreases |a|
  {
    if |a| == 0 {
      assert a + b == b;
    } else {
      assert (a + b)[1..] == a[1..] + b;
      OthersConcat(a[1..], b, id);
    }
  }

  lemma {:induction false} UniqueCountAtMostOne(ps: seq<Planet>, id: Guid)
    requires UniqueIds(ps)
    ensures Count(ps, id) <= 1
    decreases |ps|
  {
    if |ps| > 0 {
      UniqueCountAtMostOne(ps[1..], id);
      if ps[0].id == id {
        CountZero(ps[1..], id);
      }
    }
  }

  /** Removing the first entry with an id removes exactly one such entry. */
  lemma RemoveFirstEffect(ps: seq<Planet>, id: Guid)
    ensures Count(ps, id) > 0 ==> Count(RemoveFirst(ps, id), id) == Count(ps, id) - 1
    ensures Count(ps, id) == 0 ==> RemoveFirst(ps, id) == ps
    ensures Others(RemoveFirst(ps, id), id) == Others(ps, id)
  {
    var i := FirstIndex(ps, id);
    if i < |ps| {
      var pre, x, post := ps[..i], ps[i], ps[i + 1..];
      assert ps == pre + ([x] + post);
      assert RemoveFirst(ps, id) == pre + post;
      assert Count(pre, id) == 0 by {
        CountZero(pre, id);
      }
      assert Count(ps, id) == Count(pre + post, id) + 1 by {
        CountConcat(pre, [x] + post, id);
        CountConcat([x], post, id);
        CountConcat(pre, post, id);
      }
      assert Others(ps, id) == Others(pre + post, id) by {
        OthersConcat(pre, [x] + post, id);
        OthersConcat([x], post, id);
        OthersConcat(pre, post, id);
      }
    } else {
      CountZero(ps, id);
    }
  }

  /** Reading back right after a save returns the saved snapshot, provided at
      most one earlier snapshot carried its id. */
  lemma SaveThenGet(file: PlanetFile, p: Planet)
    requires Count(LoadPlanets(file), p.id) <= 1
    ensures GetPlanetById(SavePlanet(file, p), p.id) == Some(p)
  {
    var rest := RemoveFirst(LoadPlanets(file), p.id);
    RemoveFirstEffect(LoadPlanets(file), p.id);
    CountZero(rest, p.id);
    var s := rest + [p];
    var i := FirstIndex(s, p.id);
    assert s[|rest|].id == p.id;
    assert forall j :: 0 <= j < |rest| ==> s[j] == rest[j];
    assert i == |rest|;
  }

  /** A stale duplicate shadows the saved snapshot: with two earlier entries
      for the id, reading returns the second of them, not the new one. */
  lemma DuplicateShadowsSave(a: Planet, b: Planet, p: Planet)
    requires a.id == b.id == p.id
    ensures GetPlanetById(SavePlanet(Some([a, b]), p), p.id) == Some(b)
  {
    assert RemoveFirst([a, b], p.id) == [b];
    assert FirstIndex([b, p], p.id) == 0;
  }

  /** A save is an upsert: the other snapshots keep their values and order,
      and the saved one ends up last. */
  lemma SaveKeepsOthers(file: PlanetFile, p: Planet)
    ensures Others(GetPlanets(SavePlanet(file, p)), p.id) == Others(GetPlanets(file), p.id)
  {
    var rest := RemoveFirst(LoadPlanets(file), p.id);
    RemoveFirstEffect(LoadPlanets(file), p.id);
    OthersConcat(rest, [p], p.id);
    assert Others([p], p.id) == [];
  }

  lemma FindByIdCons(x: Planet, s: seq<Planet>, q: Guid)
    ensures FindById([x] + s, q) == if x.id == q then Some(x) else FindById(s, q)
  {
    assert ([x] + s)[1..] == s;
    if x.id != q {
      assert FirstIndex([x] + s, q) == 1 + FirstIndex(s, q);
    }
  }

  lemma {:induction false} FindByIdIgnoresOthers(ps: seq<Planet>, x: Guid, q: Guid)
    requires q != x
    ensures FindById(Others(ps, x), q) == FindById(ps, q)
    decreases |ps|
  {
    if |ps| > 0 {
      FindByIdIgnoresOthers(ps[1..], x, q);
      assert ps == [ps[0]] + ps[1..];
      FindByIdCons(ps[0], ps[1..], q);
      if ps[0].id != x {
        assert Others(ps, x) == [ps[0]] + Others(ps[1..], x);
        FindByIdCons(ps[0], Others(ps[1..], x), q);
      } else {
        assert Others(ps, x) == Others(ps[1..], x);
      }
    }
  }

  /** Saving one planet does not change what is read for any other id. */
  lemma SaveKeepsOtherLookups(file: PlanetFile, p: Planet, q: Guid)
    requires q != p.id
    ensures GetPlanetById(SavePlanet(file, p), q) == GetPlanetById(file, q)
  {
    SaveKeepsOthers(file, p);
    FindByIdIgnoresOthers(GetPlanets(SavePlanet(file, p)), p.id, q);
    FindByIdIgnoresOthers(GetPlanets(file), p.id, q);
  }

  /** Saves keep ids unique. */
  lemma SavePreservesUniqueIds(file: PlanetFile, p: Planet)
    requires UniqueIds(LoadPlanets(file))
    ensures UniqueIds(LoadPlanets(SavePlanet(file, p)))
  {
    var ps := LoadPlanets(file);
    UniqueCountAtMostOne(ps, p.id);
    RemoveFirstEffect(ps, p.id);
    var rest := RemoveFirst(ps, p.id);
    CountZero(rest, p.id);
    var k := FirstIndex(ps, p.id);
    assert UniqueIds(rest) by {
      if k < |ps| {
        forall i, j | 0 <= i < j < |rest|
          ensures rest[i].id != rest[j].id
        {
          var i' := if i < k then i else i + 1;
          var j' := if j < k then j else j + 1;
          assert rest[i] == ps[i'] && rest[j] == ps[j'];
        }
      }
    }
    var s := rest + [p];
    forall i, j | 0 <= i < j < |s|
      ensures s[i].id != s[j].id
    {
      if j < |rest| {
        assert s[i] == rest[i] && s[j] == rest[j];
      } else {
        assert s[i] == rest[i];
      }
    }
  }
}

=== FILE: queries.dfy ===
/** The read side: a planet as last snapshotted
    (Application/Queries/PlanetQueryHandler.cs). */
module Queries {
  import opened Wrappers
  import opened Events
  import opened Errors
  import opened Planets
  import opened PlanetStore
  import opened EventStore
  import opened StateRetriever

  /** `Handle(planetId)`: the stored snapshot, without replaying events; the
      handler does what the retriever's `GetInitialStateAsync` does. */
  function Handle(s: Stores, id: Guid): (r: Result<Planet, Error>)
    ensures r.Failure? <==> GetPlanetById(s.planetFile, id).None?
    ensures r.Failure? ==> r.error == PlanetNotFound
    ensures r.Success? ==> GetPlanetById(s.planetFile, id) == Some(r.value)
  {
    GetInitialState(s, id)
  }
}

=== FILE: resources.dfy ===
/** The resource ledger (Services/ResourcesService.cs): an amount per
    resource type held in a cache, with defaults for absent entries. */
module Resources {
  import opened Int32

  /** `ResourceType`; `Unnamed(code)` stands for a value of the enum outside
      the three named members, so `code` ranges over the other values only
      (the model does not give those codes a meaning). The cache is
      keyed by `ToString()`, which is injective on enum values, so the model
      keys it by the type itself. */
  datatype ResourceType = Metal | Crystal | Deuterium | Unnamed(code: int)

  datatype Mine = Mine(resourceType: ResourceType, level: Int32, productionRatePerHour: Int32)

  type Cache = map<ResourceType, Int32>

  type Costs = map<ResourceType, Int32>

  const SecondsPerHour: int := 3600

  /** `_initialResourceAmountPerResourceType`. */
  const InitialAmounts: map<ResourceType, Int32> := map[Metal := 100, Crystal := 50, Deuterium := 25]

  /** `GetInitialResourceAmount`: the configured default, or 0. */
  function GetInitialResourceAmount(t: ResourceType): (r: Int32)
    ensures r == (match t case Metal => 100 case Crystal => 50 case Deuterium => 25 case Unnamed(_) => 0)
  {
    if t in InitialAmounts then InitialAmounts[t] else 0
  }

  /** `GetCurrentResourceAmount`: the cached amount, or the default. */
  function GetCurrentResourceAmount(cache: Cache, t: ResourceType): (r: Int32)
    ensures t in cache ==> r == cache[t]
    ensures t !in cache ==> r == (match t case Metal => 100 case Crystal => 50 case Deuterium => 25 case Unnamed(_) => 0)
  {
    if t in cache then cache[t] else GetInitialResourceAmount(t)
  }

  /** Every listed cost is covered by the current amount. */
  predicate Affordable(cache: Cache, costs: Costs) {
    forall t :: t in costs ==> GetCurrentResourceAmount(cache, t) >= costs[t]
  }

  /** `HasEnoughResources`: a conjunction over the cost entries, visited in
      any order. */
  method HasEnoughResources(cache: Cache, costs: Costs) returns (b: bool)
    ensures b <==> Affordable(cache, costs)
    ensures costs == map[] ==> b
  {
    b := true;
    var left := costs.Keys;
    while left != {}
      invariant left <= costs.Keys
      invariant b <==> forall t :: t in costs.Keys - left ==> GetCurrentResourceAmount(cache, t) >= costs[t]
      decreases left
    {
      var t :| t in left;
      b := b && GetCurrentResourceAmount(cache, t) >= costs[t];
      left := left - {t};
    }
  }

  /** One entry of `DeductResources`: `current -= Math.Min(current, cost)`,
      an unchecked `int` subtraction. */
  function DeductOne(current: Int32, cost: Int32): (r: Int32)
    ensures cost >= current ==> r == 0
    ensures cost < current ==> r == Wrap(current - cost)
  {
    Wrap(current - if current <= cost then current else cost)
  }

  /** With a non-negative cost the amount never goes below zero and never
      grows. */
  lemma DeductOneNonNegative(current: Int32, cost: Int32)
    requires cost >= 0
    ensures 0 <= DeductOne(current, cost)
    ensures current >= 0 ==> DeductOne(current, cost) <= current
  {
  }

  /** A covered, non-negative cost is taken off exactly. */
  lemma DeductOneExact(current: Int32, cost: Int32)
    requires 0 <= cost <= current
    ensures DeductOne(current, cost) == current - cost
  {
  }

  /** A negative cost wraps around: `int.MinValue` taken from the Metal
      default of 100 leaves a negative amount. */
  lemma DeductOneNegativeCostWraps()
    ensures DeductOne(100, Min) == 100 + Min
    ensures DeductOne(100, Min) < 0
  {
    assert 100 - Min == Max + 101;
    assert Wrap(100 - Min) == 100 - Min - Modulus;
  }

  /** `DeductResources`: each listed type gets `DeductOne` of its current
      amount; every other entry of the cache is left alone. */
  method DeductResources(cache: Cache, costs: Costs) returns (r: Cache)
    ensures forall t :: t in costs ==> t in r && r[t] == DeductOne(GetCurrentResourceAmount(cache, t), costs[t])
    ensures forall t :: t !in costs ==> (t in r <==> t in cache) && (t in r ==> r[t] == cache[t])
    ensures (forall t :: t in costs ==> costs[t] >= 0) ==> forall t :: t in costs ==> GetCurrentResourceAmount(r, t) >= 0
    ensures (forall t :: t in costs ==> costs[t] >= 0) && Affordable(cache, costs) ==>
      forall t :: t in costs ==> GetCurrentResourceAmount(r, t) == GetCurrentResourceAmount(cache, t) - costs[t]
  {
    r := cache;
    var left := costs.Keys;
    while left != {}
      invariant left <= costs.Keys
      invariant forall t :: t in costs.Keys - left ==> t in r && r[t] == DeductOne(GetCurrentResourceAmount(cache, t), costs[t])
      invariant forall t :: t !in costs.Keys - left ==> (t in r <==> t in cache) && (t in r ==> r[t] == cache[t])
      decreases left
    {
      var t :| t in left;
      r := r[t := DeductOne(GetCurrentResourceAmount(r, t), costs[t])];
      left := left - {t};
    }
    forall t | t in costs && costs[t] >= 0
      ensures GetCurrentResourceAmount(r, t) >= 0
      ensures GetCurrentResourceAmount(cache, t) >= costs[t] ==>
        GetCurrentResourceAmount(r, t) == GetCurrentResourceAmount(cache, t) - costs[t]
    {
      DeductOneNonNegative(GetCurrentResourceAmount(cache, t), costs[t]);
      if GetCurrentResourceAmount(cache, t) >= costs[t] {
        DeductOneExact(GetCurrentResourceAmount(cache, t), costs[t]);
      }
    }
  }

  /** The per-second production of one mine: `ProductionRatePerHour / 3600`,
      truncated. */
  function PerTick(m: Mine): (r: int)
    ensures -SecondsPerHour < m.productionRatePerHour < SecondsPerHour <==> r == 0
    ensures m.productionRatePerHour >= 0 ==> 0 <= r * SecondsPerHour <= m.productionRatePerHour
  {
    TruncDiv(m.productionRatePerHour, SecondsPerHour)
  }

  /** What the mines of one type add in a tick, before wrapping. */
  function Accrued(mines: seq<Mine>, t: ResourceType): int
    decreases |mines|
  {
    if |mines| == 0 then 0
    else Accrued(mines[..|mines| - 1], t) + (if mines[|mines| - 1].resourceType == t then PerTick(mines[|mines| - 1]) else 0)
  }

  /** Mines producing fewer than 3600 per hour add nothing per tick. */
  lemma {:induction false} SlowMinesAccrueNothing(mines: seq<Mine>, t: ResourceType)
    requires forall i :: 0 <= i < |mines| ==> -SecondsPerHour < mines[i].productionRatePerHour < SecondsPerHour
    ensures Accrued(mines, t) == 0
    decreases |mines|
  {
    if |mines| > 0 {
      SlowMinesAccrueNothing(mines[..|mines| - 1], t);
    }
  }

  /** Mines of other types add nothing to `t`. */
  lemma {:induction false} OtherMinesAccrueNothing(mines: seq<Mine>, t: ResourceType)
    requires forall i :: 0 <= i < |mines| ==> mines[i].resourceType != t
    ensures Accrued(mines, t) == 0
    decreases |mines|
  {
    if |mines| > 0 {
      OtherMinesAccrueNothing(mines[..|mines| - 1], t);
    }
  }

  /** One mine's tick: `currentValue += ProductionRatePerHour / 3600`,
      stored back under the mine's type. */
  function Tick(cache: Cache, m: Mine): (r: Cache)
    ensures forall t :: t in r <==> t in cache || t == m.resourceType
    ensures GetCurrentResourceAmount(r, m.resourceType) == Wrap(GetCurrentResourceAmount(cache, m.resourceType) + PerTick(m))
    ensures forall t :: t != m.resourceType ==> GetCurrentResourceAmount(r, t) == GetCurrentResourceAmount(cache, t)
  {
    cache[m.resourceType := Wrap(GetCurrentResourceAmount(cache, m.resourceType) + PerTick(m))]
  }

  /** `r` holds the amounts of `cache` after the ticks of `done`, wrapped. */
  ghost predicate AccruedBy(cache: Cache, r: Cache, done: seq<Mine>) {
    forall t :: GetCurrentResourceAmount(r, t) == Wrap(GetCurrentResourceAmount(cache, t) + Accrued(done, t))
  }

  /** `r` has the keys of `cache` plus the types of the first `i` mines. */
  ghost predicate KeysAfter(cache: Cache, r: Cache, mines: seq<Mine>, i: nat) {
    forall t :: t in r <==> t in cache || exists j :: 0 <= j < i && j < |mines| && mines[j].resourceType == t
  }

  /** The accumulated-amount invariant survives one more mine. */
  lemma TickAccrues(cache: Cache, r: Cache, mines: seq<Mine>, i: nat)
    requires i < |mines|
    requires AccruedBy(cache, r, mines[..i])
    ensures AccruedBy(cache, Tick(r, mines[i]), mines[..i + 1])
  {
    forall t
      ensures GetCurrentResourceAmount(Tick(r, mines[i]), t) == Wrap(GetCurrentResourceAmount(cache, t) + Accrued(mines[..i + 1], t))
    {
      TickAccruesAt(cache, r, mines, i, t);
    }
  }

  /** One resource type's amount after one more mine. */
  lemma TickAccruesAt(cache: Cache, r: Cache, mines: seq<Mine>, i: nat, t: ResourceType)
    requires i < |mines|
    requires GetCurrentResourceAmount(r, t) == Wrap(GetCurrentResourceAmount(cache, t) + Accrued(mines[..i], t))
    ensures GetCurrentResourceAmount(Tick(r, mines[i]), t) == Wrap(GetCurrentResourceAmount(cache, t) + Accrued(mines[..i + 1], t))
  {
    var m, done := mines[i], mines[..i + 1];
    assert done[..i] == mines[..i] && done[i] == m;
    assert Accrued(done, t) == Accrued(mines[..i], t) + (if m.resourceType == t then PerTick(m) else 0);
    if t == m.resourceType {
      WrapAdd(GetCurrentResourceAmount(cache, t) + Accrued(mines[..i], t), PerTick(m));
    }
  }

  /** The key-set invariant survives one more mine. */
  lemma TickKeys(cache: Cache, r: Cache, mines: seq<Mine>, i: nat)
    requires i < |mines|
    requires KeysAfter(cache, r, mines, i)
    ensures KeysAfter(cache, Tick(r, mines[i]), mines, i + 1)
  {
    forall t
      ensures t in Tick(r, mines[i]) <==> t in cache || exists j :: 0 <= j < i + 1 && mines[j].resourceType == t
    {
      if exists j :: 0 <= j < i + 1 && mines[j].resourceType == t {
        var j :| 0 <= j < i + 1 && mines[j].resourceType == t;
        if j < i {
          assert t in r;
        }
      }
    }
  }

  /** `IncreaseResources`: one tick of every mine, in order; a type produced by
      several mines accumulates, with 32-bit wrap-around. */
  method IncreaseResources(cache: Cache, mines: seq<Mine>) returns (r: Cache)
    ensures forall t :: t in r <==> t in cache || exists i :: 0 <= i < |mines| && mines[i].resourceType == t
    ensures forall t :: GetCurrentResourceAmount(r, t) == Wrap(GetCurrentResourceAmount(cache, t) + Accrued(mines, t))
    ensures (forall i :: 0 <= i < |mines| ==> -SecondsPerHour < mines[i].productionRatePerHour < SecondsPerHour) ==>
      forall t :: GetCurrentResourceAmount(r, t) == GetCurrentResourceAmount(cache, t)
    ensures forall t :: (forall i :: 0 <= i < |mines| ==> mines[i].resourceType != t) ==>
      GetCurrentResourceAmount(r, t) == GetCurrentResourceAmount(cache, t)
  {
    r := cache;
    var i := 0;
    while i < |mines|
      invariant 0 <= i <= |mines|
      invariant KeysAfter(cache, r, mines, i)
      invariant AccruedBy(cache, r, mines[..i])
    {
      TickAccrues(cache, r, mines, i);
      TickKeys(cache, r, mines, i);
      r := Tick(r, mines[i]);
      i := i + 1;
    }
    assert mines[..i] == mines;
    AccruedNothingUnchanged(cache, r, mines);
  }

  /** Where the mines accrue nothing, the amounts are unchanged. */
  lemma AccruedNothingUnchanged(cache: Cache, r: Cache, mines: seq<Mine>)
    requires AccruedBy(cache, r, mines)
    ensures (forall i :: 0 <= i < |mines| ==> -SecondsPerHour < mines[i].productionRatePerHour < SecondsPerHour) ==>
      forall t :: GetCurrentResourceAmount(r, t) == GetCurrentResourceAmount(cache, t)
    ensures forall t :: (forall i :: 0 <= i < |mines| ==> mines[i].resourceType != t) ==>
      GetCurrentResourceAmount(r, t) == GetCurrentResourceAmount(cache, t)
  {
    if forall j :: 0 <= j < |mines| ==> -SecondsPerHour < mines[j].productionRatePerHour < SecondsPerHour {
      forall t
        ensures GetCurrentResourceAmount(r, t) == GetCurrentResourceAmount(cache, t)
      {
        SlowMinesAccrueNothing(mines, t);
      }
    }
    forall t | forall j :: 0 <= j < |mines| ==> mines[j].resourceType != t
      ensures GetCurrentResourceAmount(r, t) == GetCurrentResourceAmount(cache, t)
    {
      OtherMinesAccrueNothing(mines, t);
    }
  }
}

=== FILE: scenarios.dfy ===
/** Runs of the engine from an empty store, for any planet, player, name and
    times, and the converter on hand-written records. */
module Scenarios {
  import opened Wrappers
  import opened Events
  import opened Errors
  import opened Planets
  import opened PlanetStore
  import opened EventStore
  import opened EventCodec
  import opened Ordering
  import opened History
  import opened StateRetriever
  import opened PlanetRepository
  import opened Queries
  import opened Commands

  const Empty: Stores := Stores(map[], None)

  /** The first non-Mock event of a planet on an empty store starts tracking
      it from the "New Planet" seed, and is all that is read back. */
  lemma FirstEventTracked(s1: Stores, e: Event, now: Time, later: Time)
    requires s1 == SaveEvent(Empty, PlanetType, e, now)
    requires !e.payload.Mock?
    ensures SnapshotTracksLog(s1, e.entityId, DefaultPlanet(e.entityId, now))
    ensures GetEvents(s1.logs, PlanetType, e.entityId, later) == [e]
  {
    FirstSaveStartsTracking(Empty, e, now);
    SaveEventThenGet(Empty, PlanetType, e, now, e.entityId, later);
  }

  /** One more non-Mock event of a tracked planet keeps it tracked and is read
      back at the end of its events. */
  lemma TrackedSave(s: Stores, e: Event, now: Time, base: Planet, later: Time)
    requires SnapshotTracksLog(s, e.entityId, base)
    requires !e.payload.Mock?
    ensures SnapshotTracksLog(SaveEvent(s, PlanetType, e, now), e.entityId, base)
    ensures GetEvents(SaveEvent(s, PlanetType, e, now).logs, PlanetType, e.entityId, later) ==
      GetEvents(s.logs, PlanetType, e.entityId, later) + [e]
  {
    SaveEventKeepsTracking(s, e, now, base);
    SaveEventThenGet(s, PlanetType, e, now, e.entityId, later);
  }

  /** Sequence-literal facts, kept apart so that the store proofs below do not
      have to unfold them among the store functions. */
  lemma PairLiteral<T>(a: T, b: T)
    ensures [a] + [b] == [a, b]
  {
  }

  lemma TripleLiteral<T>(a: T, b: T, c: T)
    ensures [a, b] + [c] == [a, b, c]
  {
  }

  /** Reading a tracked planet with a single event. */
  lemma ReadOneEvent(s: Stores, id: Guid, base: Planet, e: Event, now: Time)
    requires SnapshotTracksLog(s, id, base)
    requires GetEvents(s.logs, PlanetType, id, now) == [e]
    ensures GetCurrentState(s, id, now) == Success(Apply(base, e))
  {
    CurrentStateFromBase(s, id, base, now);
    SortByTimeOfSorted([e]);
    assert [e][..0] == [];
  }

  /** Reading a tracked planet whose two events were logged in time order. */
  lemma ReadTwoEvents(s: Stores, id: Guid, base: Planet, e1: Event, e2: Event, now: Time)
    requires SnapshotTracksLog(s, id, base)
    requires GetEvents(s.logs, PlanetType, id, now) == [e1, e2]
    requires e1.occurredOn <= e2.occurredOn
    ensures GetCurrentState(s, id, now) == Success(Apply(Apply(base, e1), e2))
  {
    var events := [e1, e2];
    CurrentStateFromBase(s, id, base, now);
    assert Sorted(events);
    SortByTimeOfSorted(events);
    assert events[..1] == [e1] && [e1][..0] == [];
    assert Replay(base, events) == Apply(Replay(base, [e1]), e2);
  }

  /** The stores after a create on an empty store at `t1`, then a colonize of
      the new planet by `player` at `t2`. */
  function CreateAndColonize(c: CreatePlanetCommand, player: Guid, t1: Time, t2: Time): Result<Stores, Error> {
    var s1 :- CreatePlanet(Empty, c, t1);
    ColonizePlanet(s1, ColonizePlanetCommand(c.id, player), t2)
  }

  /** On an empty store a consistent create succeeds, and the new planet can
      then be colonized by anyone: its snapshot is never colonized, even when
      the command said it was. */
  lemma CreateThenColonizeSucceeds(c: CreatePlanetCommand, player: Guid, t1: Time, t2: Time)
    requires PairConsistent(c.isColonized, c.colonizedBy, c.colonizedAt)
    ensures CreateAndColonize(c, player, t1, t2).Success?
  {
    var created := Event(c.id, t1, PlanetCreated(c.name));
    var s1 := SaveEvent(Empty, PlanetType, created, t1);
    assert Handle(Empty, c.id).Failure?;
    assert CreatePlanet(Empty, c, t1) == Success(s1);
    FirstEventTracked(s1, created, t1, t2);
    ReadOneEvent(s1, c.id, DefaultPlanet(c.id, t1), created, t2);
  }

  /** What a create and a colonize leave in the stores. */
  lemma CreateColonizeStores(c: CreatePlanetCommand, player: Guid, t1: Time, t2: Time, later: Time)
    requires PairConsistent(c.isColonized, c.colonizedBy, c.colonizedAt)
    ensures CreateAndColonize(c, player, t1, t2).Success?
    ensures CreateAndColonize(c, player, t1, t2).value ==
      SaveEvent(SaveEvent(Empty, PlanetType, Event(c.id, t1, PlanetCreated(c.name)), t1),
                PlanetType, Event(c.id, t2, PlanetColonized(player)), t2)
    ensures SnapshotTracksLog(CreateAndColonize(c, player, t1, t2).value, c.id, DefaultPlanet(c.id, t1))
    ensures GetEvents(CreateAndColonize(c, player, t1, t2).value.logs, PlanetType, c.id, later) ==
      [Event(c.id, t1, PlanetCreated(c.name)), Event(c.id, t2, PlanetColonized(player))]
  {
    var created, colonized := Event(c.id, t1, PlanetCreated(c.name)), Event(c.id, t2, PlanetColonized(player));
    var s1 := SaveEvent(Empty, PlanetType, created, t1);
    CreateThenColonizeSucceeds(c, player, t1, t2);
    assert Handle(Empty, c.id).Failure?;
    assert CreatePlanet(Empty, c, t1) == Success(s1);
    FirstEventTracked(s1, created, t1, later);
    TrackedSave(s1, colonized, t2, DefaultPlanet(c.id, t1), later);
    PairLiteral(created, colonized);
  }

  /** Create, then colonize, then read: the current state carries the
      command's name, the colonizer and the colonization time. */
  lemma CreateColonizeRead(c: CreatePlanetCommand, player: Guid, t1: Time, t2: Time, now: Time)
    requires PairConsistent(c.isColonized, c.colonizedBy, c.colonizedAt)
    requires t1 <= t2
    ensures CreateAndColonize(c, player, t1, t2).Success?
    ensures var r := GetCurrentState(CreateAndColonize(c, player, t1, t2).value, c.id, now);
      r.Success? && r.value.id == c.id && r.value.name == c.name && r.value.isColonized &&
      r.value.colonizedBy == Some(player) && r.value.colonizedAt == Some(t2)
  {
    CreateColonizeStores(c, player, t1, t2, now);
    ReadTwoEvents(CreateAndColonize(c, player, t1, t2).value, c.id, DefaultPlanet(c.id, t1),
      Event(c.id, t1, PlanetCreated(c.name)), Event(c.id, t2, PlanetColonized(player)), now);
  }

  /** After a create and a colonize, the colonizer may not clear the name and
      no other player may rename the planet. */
  lemma RenameAfterColonize(c: CreatePlanetCommand, player: Guid, other: Guid, name: string, t1: Time, t2: Time, now: Time)
    requires PairConsistent(c.isColonized, c.colonizedBy, c.colonizedAt)
    requires t1 <= t2 && other != player
    ensures CreateAndColonize(c, player, t1, t2).Success?
    ensures var s2 := CreateAndColonize(c, player, t1, t2).value;
      RenamePlanet(s2, RenamePlanetCommand(c.id, player, Some("")), now) == Failure(InvalidName) &&
      RenamePlanet(s2, RenamePlanetCommand(c.id, player, None), now) == Failure(InvalidName) &&
      RenamePlanet(s2, RenamePlanetCommand(c.id, other, Some(name)), now) == Failure(NotColonizer)
  {
    CreateColonizeRead(c, player, t1, t2, now);
  }

  /** After a create and a colonize, any other id is still unknown to the
      query, the retriever and the colonize handler. */
  lemma UnknownPlanet(c: CreatePlanetCommand, player: Guid, t1: Time, t2: Time, other: Guid, now: Time)
    requires PairConsistent(c.isColonized, c.colonizedBy, c.colonizedAt)
    requires other != c.id
    ensures CreateAndColonize(c, player, t1, t2).Success?
    ensures var s2 := CreateAndColonize(c, player, t1, t2).value;
      Handle(s2, other) == Failure(PlanetNotFound) &&
      GetCurrentState(s2, other, now) == Failure(PlanetNotFound) &&
      ColonizePlanet(s2, ColonizePlanetCommand(other, player), now) == Failure(PlanetNotFound)
  {
    var s1 := SaveEvent(Empty, PlanetType, Event(c.id, t1, PlanetCreated(c.name)), t1);
    CreateColonizeStores(c, player, t1, t2, now);
    SaveEventKeepsOtherSnapshots(Empty, PlanetType, Event(c.id, t1, PlanetCreated(c.name)), t1, other);
    SaveEventKeepsOtherSnapshots(s1, PlanetType, Event(c.id, t2, PlanetColonized(player)), t2, other);
    assert GetPlanetById(CreateAndColonize(c, player, t1, t2).value.planetFile, other).None?;
  }

  /** Of two colonizations, the later-dated one decides the current state,
      whatever their order in the log. */
  lemma LaterDatedColonizerWins(s: Stores, id: Guid, now: Time, a: Event, b: Event, c: Event)
    requires GetCurrentState(s, id, now).Success?
    requires GetEvents(s.logs, PlanetType, id, now) == [a, b, c]
    requires !Colonizes(a) && Colonizes(b) && Colonizes(c) && c.occurredOn < b.occurredOn
    ensures GetCurrentState(s, id, now).value.colonizedBy == Some(b.payload.playerId)
  {
    assert [a, b, c][1] == b;
    LatestColonizationWins(s, id, now);
  }

  /** The stores after a create and a colonize, followed by a colonization by
      `intruder`, dated `injectedAt` and written to the log directly at `t3`,
      bypassing the colonize handler. */
  function Injected(c: CreatePlanetCommand, player: Guid, intruder: Guid, t1: Time, t2: Time, injectedAt: Time, t3: Time): Stores
    requires PairConsistent(c.isColonized, c.colonizedBy, c.colonizedAt)
  {
    CreateThenColonizeSucceeds(c, player, t1, t2);
    SaveEvent(CreateAndColonize(c, player, t1, t2).value, PlanetType, Event(c.id, injectedAt, PlanetColonized(intruder)), t3)
  }

  lemma InjectionTracked(c: CreatePlanetCommand, player: Guid, intruder: Guid,
                         t1: Time, t2: Time, injectedAt: Time, t3: Time, later: Time)
    requires PairConsistent(c.isColonized, c.colonizedBy, c.colonizedAt)
    ensures SnapshotTracksLog(Injected(c, player, intruder, t1, t2, injectedAt, t3), c.id, DefaultPlanet(c.id, t1))
    ensures GetEvents(Injected(c, player, intruder, t1, t2, injectedAt, t3).logs, PlanetType, c.id, later) ==
      [Event(c.id, t1, PlanetCreated(c.name)), Event(c.id, t2, PlanetColonized(player)), Event(c.id, injectedAt, PlanetColonized(intruder))]
  {
    var created, colonized := Event(c.id, t1, PlanetCreated(c.name)), Event(c.id, t2, PlanetColonized(player));
    var injected := Event(c.id, injectedAt, PlanetColonized(intruder));
    CreateColonizeStores(c, player, t1, t2, later);
    TrackedSave(CreateAndColonize(c, player, t1, t2).value, injected, t3, DefaultPlanet(c.id, t1), later);
    TripleLiteral(created, colonized, injected);
  }

  lemma InjectionSnapshot(c: CreatePlanetCommand, player: Guid, intruder: Guid,
                          t1: Time, t2: Time, injectedAt: Time, t3: Time)
    requires PairConsistent(c.isColonized, c.colonizedBy, c.colonizedAt)
    ensures var s3 := Injected(c, player, intruder, t1, t2, injectedAt, t3);
      Handle(s3, c.id).Success? && Handle(s3, c.id).value.colonizedBy == Some(intruder)
  {
    var s3 := Injected(c, player, intruder, t1, t2, injectedAt, t3);
    var events := [Event(c.id, t1, PlanetCreated(c.name)), Event(c.id, t2, PlanetColonized(player)),
                   Event(c.id, injectedAt, PlanetColonized(intruder))];
    InjectionTracked(c, player, intruder, t1, t2, injectedAt, t3, t3);
    SnapshotIsReplayOfEvents(s3, c.id, DefaultPlanet(c.id, t1), t3);
    ReplayIsOutcome(DefaultPlanet(c.id, t1), events);
    assert LastColonization(events) == Some(events[2]);
  }

  lemma InjectionCurrent(c: CreatePlanetCommand, player: Guid, intruder: Guid,
                         t1: Time, t2: Time, injectedAt: Time, t3: Time, now: Time)
    requires PairConsistent(c.isColonized, c.colonizedBy, c.colonizedAt)
    requires injectedAt < t2
    ensures var s3 := Injected(c, player, intruder, t1, t2, injectedAt, t3);
      GetCurrentState(s3, c.id, now).Success? && GetCurrentState(s3, c.id, now).value.colonizedBy == Some(player)
  {
    var s3 := Injected(c, player, intruder, t1, t2, injectedAt, t3);
    InjectionSnapshot(c, player, intruder, t1, t2, injectedAt, t3);
    InjectionTracked(c, player, intruder, t1, t2, injectedAt, t3, now);
    LaterDatedColonizerWins(s3, c.id, now, Event(c.id, t1, PlanetCreated(c.name)),
      Event(c.id, t2, PlanetColonized(player)), Event(c.id, injectedAt, PlanetColonized(intruder)));
  }

  /** The repository reads its own static list, which no command writes: it
      finds the planet only when that list holds it, and then follows log
      order. */
  lemma InjectionRepository(c: CreatePlanetCommand, player: Guid, intruder: Guid,
                            t1: Time, t2: Time, injectedAt: Time, t3: Time, list: seq<Planet>, now: Time)
    requires PairConsistent(c.isColonized, c.colonizedBy, c.colonizedAt)
    ensures var r := GetById(Some(list), Injected(c, player, intruder, t1, t2, injectedAt, t3).logs, c.id, now);
      (FindById(list, c.id).Some? ==> r.Success? && r.value.colonizedBy == Some(intruder)) &&
      (FindById(list, c.id).None? ==> r == Failure(RepositoryPlanetNotFound))
  {
    var events := [Event(c.id, t1, PlanetCreated(c.name)), Event(c.id, t2, PlanetColonized(player)),
                   Event(c.id, injectedAt, PlanetColonized(intruder))];
    InjectionTracked(c, player, intruder, t1, t2, injectedAt, t3, now);
    assert LastColonization(events) == Some(events[2]);
  }

  /** The read paths disagree once events arrive out of time order: the
      snapshot (what a query returns) names the player whose event was
      appended last, while the time-ordered current state names the player
      whose event is dated latest. The log-order repository sides with the
      snapshot when its static list holds the planet, and otherwise does not
      find it. */
  lemma InjectedEarlierColonization(c: CreatePlanetCommand, player: Guid, intruder: Guid,
                                    t1: Time, t2: Time, injectedAt: Time, t3: Time, list: seq<Planet>, now: Time)
    requires PairConsistent(c.isColonized, c.colonizedBy, c.colonizedAt)
    requires injectedAt < t2
    ensures var s3 := Injected(c, player, intruder, t1, t2, injectedAt, t3);
      var r := GetById(Some(list), s3.logs, c.id, now);
      Handle(s3, c.id).Success? && Handle(s3, c.id).value.colonizedBy == Some(intruder) &&
      GetCurrentState(s3, c.id, now).Success? && GetCurrentState(s3, c.id, now).value.colonizedBy == Some(player) &&
      (FindById(list, c.id).Some? ==> r.Success? && r.value.colonizedBy == Some(intruder)) &&
      (FindById(list, c.id).None? ==> r == Failure(RepositoryPlanetNotFound))
  {
    InjectionSnapshot(c, player, intruder, t1, t2, injectedAt, t3);
    InjectionCurrent(c, player, intruder, t1, t2, injectedAt, t3, now);
    InjectionRepository(c, player, intruder, t1, t2, injectedAt, t3, list, now);
  }

  /** The converter's error cases on hand-written records. */
  lemma UnknownTagRejected()
    ensures var r := Read(map[EventTypeKey := Text("UnknownEventType"), EntityIdKey := Uuid(4)], 0);
      r == Failure(UnsupportedEventType("UnknownEventType")) &&
      r.error.Message() == "Event type 'UnknownEventType' is not supported" &&
      r.error.Exception() == NotImplementedException
  {
    UnknownTagNotInTable();
    UnsupportedMessage();
  }

  lemma UnknownTagNotInTable()
    ensures "UnknownEventType" !in EventTypeMap
  {
    EventTypeMapExact();
    assert "UnknownEventType"[0] == 'U';
  }

  lemma UnsupportedMessage()
    ensures UnsupportedEventType("UnknownEventType").Message() == "Event type 'UnknownEventType' is not supported"
  {
  }

  lemma MissingTagRejected()
    ensures var r := Read(map[OccurredOnKey := Instant(3), EntityIdKey := Uuid(4)], 0);
      r == Failure(MissingEventType) && r.error.Message() == "Missing EventType property" &&
      r.error.Exception() == JsonException
  {
    assert EventTypeKey != OccurredOnKey && EventTypeKey != EntityIdKey;
  }

  /** A Mock record's own `OccurredOn` is ignored in favour of the clock, and a
      missing `EntityId` reads as the empty id. */
  lemma MockReadsTheClock()
    ensures Read(map[EventTypeKey := Text("MockDomainEvent"), OccurredOnKey := Instant(3)], 9) ==
      Success(Event(EmptyGuid, 9, Mock))
  {
    EventTypeMapExact();
    assert EntityIdKey != OccurredOnKey && EntityIdKey != EventTypeKey;
  }
}

=== FILE: state_retriever.dfy ===
/** Rebuilding a planet from its snapshot and its events
    (Infrastructure/PlanetStateRetriever.cs). */
module StateRetriever {
  import opened Wrappers
  import opened Events
  import opened Errors
  import opened Planets
  import opened PlanetStore
  import opened EventStore
  import opened EventCodec
  import opened Ordering
  import opened History

  /** `GetInitialStateAsync`: the stored snapshot, or "Planet not found.". */
  function GetInitialState(s: Stores, id: Guid): (r: Result<Planet, Error>)
    ensures r.Failure? <==> forall i :: 0 <= i < |LoadPlanets(s.planetFile)| ==> LoadPlanets(s.planetFile)[i].id != id
    ensures r.Failure? ==> r.error == PlanetNotFound
    ensures r.Success? ==> r.value.id == id && r.value in LoadPlanets(s.planetFile)
    ensures r.Success? ==>
      FirstIndex(LoadPlanets(s.planetFile), id) < |LoadPlanets(s.planetFile)| &&
      r.value == LoadPlanets(s.planetFile)[FirstIndex(LoadPlanets(s.planetFile), id)]
  {
    match GetPlanetById(s.planetFile, id)
    case None => Failure(PlanetNotFound)
    case Some(p) => Success(p)
  }

  /** `GetCurrentStateAsync`: the snapshot with the planet's events applied
      in ascending `OccurredOn` order, ties kept in log order. The result is
      the reference outcome of those events: the name of the last naming
      event and the colonization of the last Colonized event, in that order. */
  function GetCurrentState(s: Stores, id: Guid, now: Time): (r: Result<Planet, Error>)
    ensures r.Failure? <==> GetInitialState(s, id).Failure?
    ensures r.Failure? ==> r.error == PlanetNotFound
    ensures r.Success? ==>
      var p := GetInitialState(s, id).value;
      r.value == Outcome(p, SortByTime(GetEvents(s.logs, PlanetType, id, now))) &&
      r.value.id == id && r.value.domainEvents == p.domainEvents &&
      (Consistent(p) ==> Consistent(r.value))
  {
    var p :- GetInitialState(s, id);
    var events := SortByTime(GetEvents(s.logs, PlanetType, p.id, now));
    ReplayIsOutcome(p, events);
    ReplayInvariants(p, events);
    Success(Replay(p, events))
  }

  /** With no events the current state is the snapshot itself. */
  lemma NoEventsGivesInitialState(s: Stores, id: Guid, now: Time)
    requires GetEvents(s.logs, PlanetType, id, now) == []
    ensures GetCurrentState(s, id, now) == GetInitialState(s, id)
  {
  }

  /** When no two of the planet's events share a timestamp, the order in
      which they were logged does not matter. */
  lemma CurrentStateOrderIndependent(s1: Stores, s2: Stores, id: Guid, now: Time)
    requires GetPlanetById(s1.planetFile, id) == GetPlanetById(s2.planetFile, id)
    requires multiset(GetEvents(s1.logs, PlanetType, id, now)) == multiset(GetEvents(s2.logs, PlanetType, id, now))
    requires DistinctTimes(GetEvents(s1.logs, PlanetType, id, now)) && DistinctTimes(GetEvents(s2.logs, PlanetType, id, now))
    ensures GetCurrentState(s1, id, now) == GetCurrentState(s2, id, now)
  {
    DistinctTimesOrderIndependent(GetEvents(s1.logs, PlanetType, id, now), GetEvents(s2.logs, PlanetType, id, now));
  }

  /** Among any events, the last Colonized event after sorting is one with
      the greatest `OccurredOn`. */
  lemma SortedLastColonization(events: seq<Event>)
    requires exists i :: 0 <= i < |events| && Colonizes(events[i])
    ensures LastColonization(SortByTime(events)).Some?
    ensures var c := LastColonization(SortByTime(events)).value;
      c in events && Colonizes(c) &&
      forall x :: x in events && Colonizes(x) ==> x.occurredOn <= c.occurredOn
  {
    var sorted := SortByTime(events);
    SortByTimeSortedPermutation(events);
    var i :| 0 <= i < |events| && Colonizes(events[i]);
    assert events[i] in multiset(sorted);
    LastColonizationFound(sorted);
    var c := LastColonization(sorted).value;
    LastColonizationIsLatest(sorted);
    assert c in multiset(events);
    forall x | x in events && Colonizes(x)
      ensures x.occurredOn <= c.occurredOn
    {
      assert x in multiset(sorted);
      var k :| 0 <= k < |sorted| && sorted[k] == x;
    }
  }

  /** The colonizer of the current state is the one of a Colonized event with
      the greatest `OccurredOn`: a later colonization overrides an earlier one. */
  lemma LatestColonizationWins(s: Stores, id: Guid, now: Time)
    requires GetCurrentState(s, id, now).Success?
    requires exists i :: 0 <= i < |GetEvents(s.logs, PlanetType, id, now)| && Colonizes(GetEvents(s.logs, PlanetType, id, now)[i])
    ensures var r := GetCurrentState(s, id, now).value;
      var events := GetEvents(s.logs, PlanetType, id, now);
      r.isColonized &&
      exists c :: c in events && Colonizes(c) && r.colonizedBy == Some(c.payload.playerId) && r.colonizedAt == Some(c.occurredOn) &&
        forall x :: x in events && Colonizes(x) ==> x.occurredOn <= c.occurredOn
  {
    var events := GetEvents(s.logs, PlanetType, id, now);
    SortedLastColonization(events);
    var c := LastColonization(SortByTime(events)).value;
    assert c in events && Colonizes(c);
  }

  /** Under the store invariant the snapshot already reflects every logged
      event, and the retriever applies them a second time; because `Apply`
      only overwrites fields this is the same as replaying the sorted events
      once on the base planet. */
  lemma CurrentStateFromBase(s: Stores, id: Guid, base: Planet, now: Time)
    requires SnapshotTracksLog(s, id, base)
    ensures GetCurrentState(s, id, now) == Success(Replay(base, SortByTime(GetEvents(s.logs, PlanetType, id, now))))
  {
    var events := GetEvents(s.logs, PlanetType, id, now);
    SnapshotIsReplayOfEvents(s, id, base, now);
    SortByTimeSortedPermutation(events);
    ReplayPermutationAbsorbs(base, events, SortByTime(events));
  }

  /** When the planet's events were logged in time order, the current state
      is exactly the stored snapshot. */
  lemma SortedLogGivesSnapshot(s: Stores, id: Guid, base: Planet, now: Time)
    requires SnapshotTracksLog(s, id, base)
    requires Sorted(GetEvents(s.logs, PlanetType, id, now))
    ensures GetCurrentState(s, id, now) == GetInitialState(s, id)
  {
    CurrentStateFromBase(s, id, base, now);
    SortByTimeOfSorted(GetEvents(s.logs, PlanetType, id, now));
    SnapshotIsReplayOfEvents(s, id, base, now);
  }
}

=== FILE: wrappers.dfy ===
/** Optional values and success-or-error results, standing in for C#'s nullable
    references and thrown exceptions. */
module Wrappers {

  /** `None` plays the role of a C# `null`. */
  datatype Option<+T> = None | Some(value: T) {

    predicate IsFailure() {
      None?
    }

    function PropagateFailure<U>(): Option<U>
      requires None?
    {
      None
    }

    function Extract(): T
      requires Some?
    {
      value
    }
  }

  /** `Failure(e)` plays the role of an exception carrying `e`. */
  datatype Result<+R, +E> = Success(value: R) | Failure(error: E) {

    predicate IsFailure() {
      Failure?
    }

    function PropagateFailure<U>(): Result<U, E>
      requires Failure?
    {
      Failure(error)
    }

    function Extract(): R
      requires Success?
    {
      value
    }
  }
}
